=== FILE: README.md ===
# PlayTube account credentials, modelled in Dafny

This project models the account-credential core of the PlayTube backend:
registration, login, token issue and logout in
`src/controllers/user.controller.js`, the `User` model's schema rules,
password hook and token methods in `src/models/user.model.js`, and the
`verifyJWT` gate in `src/middlewares/auth.middleware.js`.

The `users` collection is a `Store`: a map from `_id` to `Account` plus the
natural order that `findOne` scans in. Each controller operation is a
function from the collection before a request to a `Response` and the
collection after it. `Response` holds a status code and a payload, or the
`ApiError` that was thrown, or an exception that is not an `ApiError`.
The class `UserCollection` performs the same operations imperatively: it
loads documents, sets `refreshToken`, runs the pre-save hook and writes
back. Its four request methods are `GenerateAccessAndRefreshTokens`,
`RegisterUser`, `LoginUser` and `LogoutUser`. Each is proved to agree with
its function and to keep the collection invariant `Consistent`. The
helpers `FindById` and `Create` are proved to agree with the stored
account and with `Insert`. The invariant `Consistent` says each
account is stored once under its own `_id`, its username and email are
lower case and trimmed, its full name is trimmed, its required paths are
non-empty, its password is a bcrypt hash, and usernames and emails are
unique.

bcrypt and `jsonwebtoken` are concrete stand-ins with their required
properties proved as lemmas:
- a password verifies against `Hash(q)` exactly when it is `q` (real
  bcrypt reads only the first 72 bytes; see "Left out");
- a token verifies under the secret it was signed with and gives back its
  claims and expiry;
- a token signed with one secret is refused under any other.

JavaScript `trim`, `toLowerCase`, string `replace` and truthiness are
modelled in `js_string.dfy`. Things outside the process are parameters:
- the Cloudinary upload result, as a URL or nothing;
- the `_id` the driver assigns;
- the environment's secrets and expiries, an unset variable reading as "";
- whether a token has expired, as a boolean.

Files: `wrappers.dfy`, `api.dfy`, `js_string.dfy`, `timespan.dfy`, `bcrypt.dfy`, `jwt.dfy`,
`user_model.dfy`, `auth_middleware.dfy`, `user_controller.dfy`.

Decisions about library behaviour that the source relies on:
- Mongoose applies the `lowercase` and `trim` setters to query values as
  well as to stored values. A `{ username }` condition therefore compares
  the stored value with the cast request value.
- Validation runs before the pre-save hook, and `validateBeforeSave: false`
  skips it. On a new document every path counts as modified, so `create`
  always hashes the password. `save` after a `findById` hashes nothing
  unless `password` was assigned.
- `bcrypt.compare(undefined, hash)` throws "data and hash arguments
  required". `jwt.sign` with an empty or undefined secret throws
  "secretOrPrivateKey must have a value". It then throws when `expiresIn`
  is empty or undefined, or when the `ms` package cannot read it as a time
  span such as "10d" or "1.5 hours". `jwt.verify` checks, in order: token
  shape ("jwt malformed"), payload ("invalid token"), secret present,
  signature ("invalid signature"), expiry value ("invalid exp value"),
  expiry ("jwt expired").
- An exception that is not an `ApiError` is `Uncaught(reason)`. Examples:
  a `TypeError` from `req.files.avatar[0]` or `username.toLowerCase()`, a
  validation error, or the duplicate-key error `E11000`. The status
  `asyncHandler` gives it is not shown in the source.

## Model

| member | source | states |
|---|---|---|
| JsString.Trim | src/models/user.model.js:13 | `trim` cuts only white space from each end and leaves a result that neither starts nor ends with white space; the result is empty exactly when the input is blank |
| JsString.TrimIdempotent | src/models/user.model.js:13 | trimming twice is the same as trimming once |
| JsString.TrimOfTrimmed | src/models/user.model.js:13 | trimming a value without surrounding white space leaves it unchanged |
| JsString.ToLower | src/models/user.model.js:12 | `toLowerCase` on ASCII letters: each character is lowered in place |
| JsString.ToLowerProperties | src/models/user.model.js:12 | lowering yields a lower-case string, is idempotent, and keeps white space where it was |
| JsString.TrimKeepsLower | src/models/user.model.js:12-13 | trimming a lower-case string keeps it lower case |
| JsString.IndexOf | src/middlewares/auth.middleware.js:20 | the first position where the pattern occurs, or none when it occurs nowhere |
| JsString.ReplaceFirst | src/middlewares/auth.middleware.js:20 | `replace` with a string pattern replaces only the first occurrence and keeps the text on both sides; with no occurrence the string is unchanged |
| JsString.ReplaceLeading | src/middlewares/auth.middleware.js:20 | removing a leading "Bearer " gives back exactly the rest |
| Bcrypt.Hash | src/models/user.model.js:61 | the hash is a well-formed bcrypt string with the given cost and is never the plaintext |
| Bcrypt.CompareHash | src/models/user.model.js:72 | `compare(p, Hash(q))` holds exactly when `p == q` |
| Bcrypt.Compare | src/models/user.model.js:72 | `compare` accepts only against a well-formed hashed form, never by plain equality with the stored value |
| Bcrypt.RehashRejectsPlain | src/models/user.model.js:59 | hashing an already hashed password would lock the user out, which is why the hook skips an unmodified password |
| Timespan.TimespanShape | src/models/user.model.js:85 | a value `expiresIn` accepts is non-empty, at most 100 characters, starts with a sign, a digit or a point, and holds a digit |
| Timespan.TimespansAccepted | src/models/user.model.js:85 | "10d" and "1.5 Hours" are accepted expiries |
| Timespan.TimespansRefused | src/models/user.model.js:85 | an unset expiry ("") and "ten days" are refused |
| Jwt.Sign | src/models/user.model.js:76-87 | signing succeeds exactly when the secret is set and the expiry is a time span; an unset secret fails first, with "secretOrPrivateKey must have a value" |
| Jwt.Verify | src/middlewares/auth.middleware.js:27 | a token verifies only under a set secret, while unexpired, and with an expiry that signing would accept |
| Jwt.VerifySigned | src/middlewares/auth.middleware.js:27 | a signed token verifies under its own secret to its payload and expiry, or fails "jwt expired" once expired |
| Jwt.VerifyOnlySigned | src/middlewares/auth.middleware.js:27 | only a token signed with the secret verifies under it, and only while unexpired |
| Jwt.OtherSecretRejected | src/middlewares/auth.middleware.js:27 | a token signed with one secret is refused under any other secret |
| Jwt.ClaimValue | src/middlewares/auth.middleware.js:29 | `decodedToken?._id` is the value of the last `_id` claim in the payload, as `JSON.parse` keeps the last of repeated keys, and is absent only when no claim has that name |
| UserModel.CastIdentifier | src/models/user.model.js:12-13 | the `username` and `email` setters give a lower-case value without surrounding white space, no longer than the input |
| UserModel.CastName | src/models/user.model.js:26 | the `fullName` setter gives a value without surrounding white space, no longer than the input |
| UserModel.Cast | src/models/user.model.js:8-35 | casting keeps which paths are defined, normalises username, email and fullName, and leaves avatar, coverImage and password as given |
| UserModel.View | src/controllers/user.controller.js:168 | an account as `.select("-password -refreshToken")` returns it, here and at lines 99-101 and in the gate's `findById` |
| UserModel.ViewHidesOnlySecrets | src/controllers/user.controller.js:99-101 | `.select("-password -refreshToken")` hides exactly the two secrets: two accounts give the same view exactly when they differ at most in password and refresh token |
| UserModel.RequiredErrors | src/models/user.model.js:8-45 | validation passes exactly when username, email, fullName, avatar and password are all defined and non-empty; coverImage and refreshToken are optional |
| UserModel.CastIdentifierIdempotent | src/models/user.model.js:12-13 | the lowercase-and-trim setter is idempotent |
| UserModel.CastIdentifierLowered | src/controllers/user.controller.js:90 | lowering the username before `create` changes nothing about what is stored, and the stored value is empty exactly when the input is blank |
| UserModel.SettersNormalise | src/models/user.model.js:8-27 | the setters produce lower-case trimmed identifiers and a trimmed name, and leave such values unchanged |
| UserModel.NewAccountConforms | src/models/user.model.js:6-54 | values that pass validation after casting make an account whose identifiers and name are normalised and whose required paths are non-empty |
| UserModel.PreSaveHook | src/models/user.model.js:57-63 | the hook changes no path but `password`; a modified password becomes a hashed form that accepts the old plaintext; an unmodified document is unchanged |
| UserModel.PreSaveHashesOnlyModified | src/models/user.model.js:57-63 | the hook changes the password exactly when it was modified, then to a cost-10 hash, and changes no other path |
| UserModel.IsPasswordCorrect | src/models/user.model.js:71-73 | `isPasswordCorrect` accepts only against a hashed stored password, and never because the attempt equals the stored value |
| UserModel.PasswordCheckAfterSave | src/models/user.model.js:71-73 | after the hook hashes a plaintext, `isPasswordCorrect` accepts exactly that plaintext and the stored value is not the plaintext |
| UserModel.GenerateAccessToken | src/models/user.model.js:75-88 | an access token is produced exactly when `ACCESS_TOKEN_SECRET` is set and `ACCESS_TOKEN_EXPIRY` is a time span |
| UserModel.GenerateRefreshToken | src/models/user.model.js:89-100 | a refresh token is produced exactly when `REFRESH_TOKEN_SECRET` is set and `REFRESH_TOKEN_EXPIRY` is a time span |
| UserModel.AccessTokenContents | src/models/user.model.js:75-88 | the access token exists exactly when the access secret is set and the access expiry is a time span, and verifies under it to exactly `_id`, `email`, `username`, `fullName` with the access expiry |
| UserModel.RefreshTokenContents | src/models/user.model.js:89-100 | the refresh token exists exactly when the refresh secret is set and the refresh expiry is a time span, and verifies under it to `_id` alone with the refresh expiry |
| UserModel.RefreshTokenIsNotAnAccessToken | src/models/user.model.js:95 | with different secrets a refresh token never verifies under the access secret |
| UserModel.UserDocument.Create | src/controllers/user.controller.js:87-94 | the document `User.create` builds holds the given values, and its password counts as modified |
| UserModel.UserDocument.Hydrate | src/controllers/user.controller.js:10 | the document `findById` returns holds the stored account, and its password does not count as modified |
| UserModel.UserDocument.SetRefreshToken | src/controllers/user.controller.js:15 | assigning `refreshToken` changes only that path and does not mark the password modified |
| UserModel.UserDocument.PreSave | src/models/user.model.js:57-63 | the hook runs in place on the document |
| AuthMiddleware.ExtractToken | src/middlewares/auth.middleware.js:20 | a truthy cookie is the token; otherwise there is a token exactly when there is an `Authorization` header, and it is no longer than the header |
| AuthMiddleware.Rejected | src/middlewares/auth.middleware.js:46-48 | the catch block rethrows as 401 with the original message, or with a non-empty default when that is empty |
| AuthMiddleware.ExtractTokenSources | src/middlewares/auth.middleware.js:20 | a truthy cookie wins over any header; a "Bearer t" header yields exactly `t` |
| AuthMiddleware.VerifyJwt | src/middlewares/auth.middleware.js:8-50 | every rejection is 401; no token gives "Please login to access this resource"; the gate lets a request through only with a token that verifies under the access secret and whose `_id` names a stored account, and every such token is let through with that account's view, without password or refresh token |
| AuthMiddleware.GateOnIssuedToken | src/middlewares/auth.middleware.js:20-42 | whichever way it is carried, an unexpired access token issued for a stored account lets the request through with that account's view |
| AuthMiddleware.GateAcceptsIssuedAccessToken | src/middlewares/auth.middleware.js:19-42 | an unexpired access token for a stored account opens the gate from the cookie or a Bearer header and yields that account's view |
| AuthMiddleware.GateRejectsRefreshToken | src/middlewares/auth.middleware.js:27 | with different secrets a refresh token is refused |
| AuthMiddleware.GateRejectsExpiredToken | src/middlewares/auth.middleware.js:46-48 | an expired access token gives 401 "jwt expired" |
| AuthMiddleware.GateRejectsUnknownAccount | src/middlewares/auth.middleware.js:29-34 | a valid access token whose account is gone gives 401 "Invalid Access Token" |
| UserController.FirstMatch | src/controllers/user.controller.js:136-138 | `findOne` returns the first account in natural order that matches, and none when none matches |
| UserController.FindOne | src/controllers/user.controller.js:136-138 | the intended query finds a stored account whose username or email equals the cast request value, and finds none only when no account does |
| UserController.FindOneAsWritten | src/controllers/user.controller.js:136-138 | the query as Mongoose runs it: what it finds matches a condition, and as soon as either value is undefined it finds the first stored account |
| UserController.FindOneNone | src/controllers/user.controller.js:51 | in a consistent collection `findOne` finds nothing exactly when no account has the username or email, and what it finds matches |
| UserController.EmailOnlyLoginMatchesFirstAccount | src/controllers/user.controller.js:136-138 | as written, a login by email alone matches the first account whatever its email, while the intended query finds the account with that email |
| UserController.AnyBlank | src/controllers/user.controller.js:43-45 | true exactly when some defined field trims to nothing; an undefined field never counts |
| UserController.AvatarLocalPath | src/controllers/user.controller.js:60 | `req.files?.avatar[0]?.path` throws exactly when `req.files` has no avatar list, and is undefined exactly without `req.files` or with an empty list |
| UserController.CoverImageLocalPath | src/controllers/user.controller.js:63-66 | there is a cover path exactly when `req.files` holds a non-empty `coverImage` list, and it is the first file's path; the lookup never throws |
| UserController.RegisterFields | src/controllers/user.controller.js:87-94 | the values handed to `create`: lowering the username first makes no difference once the setters run; email, full name and password are passed as given; the avatar URL is set, and `coverImage` is always set, to the cover URL when there is one |
| UserController.Insert | src/controllers/user.controller.js:87-94 | `User.create` fails validation when a required path is missing or empty after casting; valid values succeed exactly when the `_id` is unused and no stored account has the username or email, and otherwise fail with the duplicate-key error; on success the `_id` is appended to the natural order, every other account is unchanged, and the stored account is the cast values with a password hash that accepts the given password |
| UserController.Register | src/controllers/user.controller.js:27-117 | a failed registration changes nothing; a successful one responds 201 and appends the new account's `_id` to the natural order |
| UserController.RegisterRejectsBlankFields | src/controllers/user.controller.js:43-47 | registration fails 400 "All fields are required" exactly when a defined field is blank, and then changes nothing |
| UserController.RegisterRejectsDuplicate | src/controllers/user.controller.js:51-56 | an existing account with the username or email gives 409 whatever the files and uploads, and changes nothing |
| UserController.RegisterFiles | src/controllers/user.controller.js:60-108 | every failure after the duplicate check leaves the collection unchanged |
| UserController.RegisterAvatarChecks | src/controllers/user.controller.js:69-83 | a missing avatar path gives 400 whatever the upload would do; a failed avatar upload gives 500; no failing request creates an account |
| UserController.RegisterFieldsValid | src/controllers/user.controller.js:87-94 | with every field defined and not blank and an avatar URL, the values given to `User.create` pass validation |
| UserController.RegisterFieldsAccount | src/controllers/user.controller.js:87-94 | those values make an account with normalised username and email, trimmed name, the avatar URL, the cover URL or "", the cost-10 hash of the password and no refresh token |
| UserController.NoClashAfterDuplicateCheck | src/controllers/user.controller.js:51-56 | after the duplicate check, the new account's username and email clash with no stored account |
| UserController.RegisterCreates | src/controllers/user.controller.js:87-114 | a request that reaches `User.create` with valid values responds 201 with the new account's view and appends it, unless the `_id` is taken |
| UserController.DuplicateKeyOnlyAtCreate | src/controllers/user.controller.js:87-94 | a duplicate-key failure arises only from `User.create` with valid values |
| UserController.RegisterSuccessMeetsConditions | src/controllers/user.controller.js:43-94 | a successful registration had every field defined and not blank, no duplicate, an avatar path and an avatar URL, and an unused `_id` |
| UserController.RegisterSucceedsWhenAccepted | src/controllers/user.controller.js:43-114 | in a consistent collection those conditions make registration succeed, and with an unused `_id` the unique indexes are never tripped |
| UserController.RegisterSucceedsExactly | src/controllers/user.controller.js:27-117 | in a consistent collection registration succeeds exactly under those conditions |
| UserController.RegisterSuccess | src/controllers/user.controller.js:87-114 | success responds 201 with the view of the new account and adds exactly it; its password is the cost-10 hash of the submitted one, accepting exactly that password |
| UserController.RegisterKeepsConsistent | src/controllers/user.controller.js:87-94 | registration keeps every account normalised, hashed and unique |
| UserController.AddKeepsConsistent | src/models/user.model.js:11-19 | adding a conforming hashed account with a new `_id` and no clash keeps the collection consistent |
| UserController.IssueTokens | src/controllers/user.controller.js:8-25 | tokens are issued exactly when the account exists, both secrets are set and both expiries are time spans; the only change is that account's refresh token, overwritten with the returned one; every failure is the same 500 and changes nothing (store reads and writes are taken to succeed; see "Left out") |
| UserController.IssueTokensKeepsConsistent | src/controllers/user.controller.js:15-17 | storing a refresh token keeps the collection consistent |
| UserController.Login | src/controllers/user.controller.js:119-193 | a failed login changes nothing; a successful one responds 200 and keeps the same accounts in the same order |
| UserController.LoginAfterChecks | src/controllers/user.controller.js:147-158 | in a consistent collection, a login past the 400, 404 and 401 checks succeeds exactly when both secrets are set and both expiries are time spans, and otherwise fails with the token step's 500 (store reads and writes are taken to succeed; see "Left out") |
| UserController.LoginChecksInOrder | src/controllers/user.controller.js:128-151 | login fails 400, then 404, then 401 in that order, and any failed login leaves every account as it was |
| UserController.LoginSuccess | src/controllers/user.controller.js:147-190 | a successful login is for the matching account whose password was given; it stores exactly the returned refresh token in that account and nothing else, returns that account's view and the tokens signed for it |
| UserController.LoginTokenOpensGate | src/controllers/user.controller.js:158-185 | the access token a login returns opens the gate, from the cookie or a Bearer header, yielding the user the login returned |
| UserController.LoginKeepsConsistent | src/controllers/user.controller.js:158 | a login keeps the collection consistent |
| UserController.UnsetRefreshToken | src/controllers/user.controller.js:202-213 | `$unset: { refreshToken: 1 }` keeps every account, clears that account's refresh token, and changes nothing else |
| UserController.Logout | src/controllers/user.controller.js:195-227 | logout responds 200 whenever the update succeeds, and keeps the same accounts in the same order (see "Left out") |
| UserController.LogoutClearsOnlyRefreshToken | src/controllers/user.controller.js:202-224 | logout responds 200, clears the refresh token of that account only, and logging out twice equals once |
| UserController.LogoutKeepsConsistent | src/controllers/user.controller.js:202-213 | logout keeps the collection consistent |
| UserController.RefreshTokenChangeKeepsConsistent | src/models/user.model.js:46-48 | the optional refresh token plays no part in the collection's invariant |
| UserController.UserCollection.constructor | src/models/user.model.js:104 | an empty collection is consistent |
| UserController.UserCollection.FindById | src/controllers/user.controller.js:10 | `findById` gives a fresh unmodified document holding the stored account, or null when there is none |
| UserController.UserCollection.GenerateAccessAndRefreshTokens | src/controllers/user.controller.js:8-25 | the imperative token issue agrees with `IssueTokens` and keeps the collection consistent |
| UserController.UserCollection.Create | src/controllers/user.controller.js:87-94 | `User.create` on a new document agrees with `Insert` |
| UserController.UserCollection.RegisterUser | src/controllers/user.controller.js:27-117 | the imperative registration agrees with `Register` and keeps the collection consistent |
| UserController.UserCollection.LoginUser | src/controllers/user.controller.js:119-193 | the imperative login agrees with `Login` and keeps the collection consistent |
| UserController.UserCollection.LogoutUser | src/controllers/user.controller.js:195-227 | the imperative logout agrees with `Logout` and keeps the collection consistent |

## Left out

- Cloudinary, the disk storage of uploads, and `process.env` are parameters, not behaviour. The cover upload is consulted only when a cover path exists; `uploadOnCloudinary(undefined)` is taken to give nothing.
- The re-reads with `findById(...).select(...)` after `create` and after token issue always find the account in this sequential model. The 500 "Failed to create user" branch is modelled but cannot be reached.
- `watchHistory`, `timestamps` and the `index: true` options of the schema play no part in the credential rules and are not modelled.
- bcrypt salts, cost-dependent work and constant-time comparison are left out: `Bcrypt.Hash` is deterministic.
- JWT encoding (base64url, JSON), HMAC cryptography and clock-based expiry are left out: a token is an escaped serialisation with a signature tag, and expiry is a boolean.
- JsString.ToLower: lowers ASCII letters only. Unicode case mappings are not modelled, including those that change the length: JavaScript lowers "İ" to two code units, while the model keeps one character per character.
- Bcrypt.CompareHash: holds for the stand-in, not for real bcrypt. bcrypt reads only the first 72 bytes of a password, so two passwords that share those bytes verify against the same hash.
- UserController.IssueTokens, UserController.Login, UserController.Logout, UserController.Insert and UserController.Register take every MongoDB read and write to succeed: a rejection for I/O reasons is not modelled. In the program, a rejected `findById` or `save` inside `generateAccessAndRefreshTokens` (user.controller.js:10 and 17) is caught at lines 22-23 and gives the same 500, with no refresh token stored; a rejected `findByIdAndUpdate` in `logoutUser` (lines 202-213) fails the request instead of responding 200; a rejected `User.create` (lines 87-94) fails registration with nothing stored.
- UserController.Register and UserController.Login run the corrected query `FindOne`, in which an undefined value matches nothing. The program as written runs `FindOneAsWritten`. There, a registration without a username gets 409 at line 51 whenever any account exists, and a login with only an email checks the password of the first account at line 136. The lemmas about registration and login describe the corrected behaviour; see "Findings".
- Request bodies (`RegisterBody`, `LoginBody`) hold each value as a string or undefined. Not modelled: a JSON number, which makes `field?.trim()` throw a `TypeError` at line 44; an object, which Mongoose reads as a query operator at lines 51 and 136; and `null`, which the model folds into undefined.
- Timespan.IsTimespan follows the string grammar of the `ms` package, with ASCII case folding for units. The numeric value, and so the expiry instant, is not computed: expiry is the boolean the caller supplies.
- HTTP response construction, cookies and their options, `ApiResponse`, and the status `asyncHandler` gives to an exception that is not an `ApiError` are not modelled.
- Concurrent requests, and unique-index enforcement under concurrent writes, are not modelled: requests run one at a time.
- No refresh or renew endpoint exists in the modelled files. The refresh token is modelled only as written by login and cleared by logout.
- UserController.UserCollection.FindById, UserModel.UserDocument.PreSave and the other class members state the new state with `old`/`fresh`. The properties proved about their specification functions carry the meaning.

## Findings

| source | as written | input that shows it | evidently intended | confidence | as-written member | corrected member |
|---|---|---|---|---|---|---|
| src/controllers/user.controller.js:136-138 | `findOne({ $or: [{username}, {email}] })` with `username` undefined: Mongoose drops a condition whose value is undefined, so `{}` joins the `$or` and every account matches. The same filter is used at line 51. | A collection with two accounts and a login body with only the second account's email: the query returns the first account, so the password is checked against the wrong account. At line 51 a registration without a username gets 409 whenever any account exists. | An undefined value matches nothing, so a login by email alone finds the account with that email | medium; not executed | UserController.EmailOnlyLoginMatchesFirstAccount | UserController.FindOneNone |

=== FILE: api.dfy ===
/**
 * How a request handler ends: a status with a payload, an `ApiError` the
 * handler throws on purpose, or some other exception that escapes it.
 */
module Api {

  /** `new ApiError(statusCode, message)`. */
  datatype ApiError = ApiError(statusCode: int, message: string)

  /**
   * A failed request.  `Uncaught` is an exception that is not an
   * `ApiError` (a `TypeError`, a Mongoose validation error, a duplicate key
   * error); its reason is the exception's message.
   */
  datatype Failure = Thrown(error: ApiError) | Uncaught(reason: string)

  /** The tagged result of a request handler, carrying the status it responds with. */
  datatype Response<+T> = Success(status: int, value: T) | Fail(failure: Failure)

  /** Shorthand for failing with an `ApiError`. */
  function Error<T>(status: int, message: string): Response<T> {
    Fail(Thrown(ApiError(status, message)))
  }
}

=== FILE: auth_middleware.dfy ===
/**
 * `verifyJWT` of src/middlewares/auth.middleware.js: the gate in front of
 * every authenticated route.  Instead of setting `req.user` and calling
 * `next()`, the gate returns the account view it would attach.
 */
module AuthMiddleware {
  import opened Wrappers
  import JsString
  import Jwt
  import opened Api
  import opened UserModel

  /** The parts of a request the gate reads: the `accessToken` cookie and the `Authorization` header. */
  datatype Request = Request(accessTokenCookie: Option<string>, authorization: Option<string>)

  /** `next()` with `req.user` set, or the `ApiError` the gate throws. */
  datatype GateResult = Next(user: UserView) | Reject(error: ApiError)

  /** The text the header code strips from the `Authorization` value. */
  const BearerPrefix: string := "Bearer "

  /**
   * `req.cookies?.accessToken || req.header("Authorization")?.replace("Bearer ", "")`:
   * the cookie when it is truthy, otherwise the header with its first
   * "Bearer " removed, wherever it stands.
   */
  function ExtractToken(req: Request): (r: Option<string>)
    ensures JsString.Truthy(req.accessTokenCookie) ==> r == req.accessTokenCookie
    ensures !JsString.Truthy(req.accessTokenCookie) ==>
      (r.None? <==> req.authorization.None?) && (r.Some? ==> |r.value| <= |req.authorization.value|)
  {
    if JsString.Truthy(req.accessTokenCookie) then req.accessTokenCookie
    else match req.authorization
      case None => None
      case Some(h) => Some(JsString.ReplaceFirst(h, BearerPrefix, ""))
  }

  /** A truthy cookie wins over any header; a header of the form "Bearer <t>" yields exactly `t`. */
  lemma ExtractTokenSources(cookie: string, header: Option<string>, t: string)
    ensures cookie != "" ==> ExtractToken(Request(Some(cookie), header)) == Some(cookie)
    ensures ExtractToken(Request(None, Some(BearerPrefix + t))) == Some(t)
    ensures ExtractToken(Request(Some(""), Some(BearerPrefix + t))) == Some(t)
  {
    JsString.ReplaceLeading(BearerPrefix, t);
  }

  /**
   * `verifyJWT`: extract the token, verify it with the access secret, look
   * up the account named by its `_id` claim.  Every failure, including
   * one thrown by `jwt.verify`, is rethrown as a 401 carrying the original
   * message.  The gate lets a request through only with a token that
   * verifies under the access secret and names an existing account, and
   * then hands on that account's view; every such token is let through.
   */
  function VerifyJwt(accounts: map<Id, Account>, req: Request, env: Env, expired: bool): (r: GateResult)
    ensures r.Reject? ==> r.error.statusCode == 401
    ensures !JsString.Truthy(ExtractToken(req)) ==> r == Reject(ApiError(401, "Please login to access this resource"))
    ensures r.Next? ==>
      && JsString.Truthy(ExtractToken(req))
      && Jwt.Verify(ExtractToken(req).value, env.accessTokenSecret, expired).Ok?
      && var id := Jwt.ClaimValue(Jwt.Verify(ExtractToken(req).value, env.accessTokenSecret, expired).value.payload, "_id");
         id.Some? && id.value in accounts && r.user == View(accounts[id.value])
    ensures JsString.Truthy(ExtractToken(req)) && Jwt.Verify(ExtractToken(req).value, env.accessTokenSecret, expired).Ok? ==>
      var id := Jwt.ClaimValue(Jwt.Verify(ExtractToken(req).value, env.accessTokenSecret, expired).value.payload, "_id");
      id.Some? && id.value in accounts ==> r == Next(View(accounts[id.value]))
  {
    var token := ExtractToken(req);
    if !JsString.Truthy(token) then Rejected("Please login to access this resource")
    else match Jwt.Verify(token.value, env.accessTokenSecret, expired)
      case Err(message) => Rejected(message)
      case Ok(decoded) =>
        var id := Jwt.ClaimValue(decoded.payload, "_id");
        if id.None? || id.value !in accounts then Rejected("Invalid Access Token")
        else Next(View(accounts[id.value]))
  }

  /** The catch block: `new ApiError(401, error?.message || "Invalid access token")`. */
  function Rejected(message: string): (r: GateResult)
    ensures r.Reject? && r.error.statusCode == 401 && r.error.message != ""
    ensures message != "" ==> r.error.message == message
  {
    Reject(ApiError(401, if message != "" then message else "Invalid access token"))
  }

  /** Whatever carries it, an unexpired access token issued for a stored account opens the gate. */
  lemma GateOnIssuedToken(accounts: map<Id, Account>, a: Account, env: Env, req: Request)
    requires a.id in accounts && accounts[a.id] == a
    requires GenerateAccessToken(a, env).Ok?
    requires ExtractToken(req) == Some(GenerateAccessToken(a, env).value)
    ensures VerifyJwt(accounts, req, env, false) == Next(View(a))
  {
    var t := GenerateAccessToken(a, env).value;
    AccessTokenContents(a, env);
    assert t != "" by {
      assert Jwt.Verify(t, env.accessTokenSecret, false).Ok?;
    }
  }

  /**
   * An unexpired access token issued for a stored account opens the gate,
   * from the cookie or from a "Bearer" header, and yields that account
   * without its secrets.
   */
  lemma GateAcceptsIssuedAccessToken(accounts: map<Id, Account>, a: Account, env: Env)
    requires a.id in accounts && accounts[a.id] == a
    requires GenerateAccessToken(a, env).Ok?
    ensures VerifyJwt(accounts, Request(Some(GenerateAccessToken(a, env).value), None), env, false) == Next(View(a))
    ensures VerifyJwt(accounts, Request(None, Some(BearerPrefix + GenerateAccessToken(a, env).value)), env, false)
         == Next(View(a))
  {
    var t := GenerateAccessToken(a, env).value;
    assert t != "" by {
      AccessTokenContents(a, env);
      assert Jwt.Verify(t, env.accessTokenSecret, false).Ok?;
    }
    ExtractTokenSources(t, None, t);
    GateOnIssuedToken(accounts, a, env, Request(Some(t), None));
    GateOnIssuedToken(accounts, a, env, Request(None, Some(BearerPrefix + t)));
  }

  /** With separate secrets, a refresh token presented to the gate is refused with 401. */
  lemma GateRejectsRefreshToken(accounts: map<Id, Account>, a: Account, env: Env, expired: bool)
    requires env.accessTokenSecret != env.refreshTokenSecret
    requires GenerateRefreshToken(a, env).Ok?
    ensures VerifyJwt(accounts, Request(Some(GenerateRefreshToken(a, env).value), None), env, expired).Reject?
  {
    RefreshTokenIsNotAnAccessToken(a, env, expired);
  }

  /** An expired access token is refused with 401 "jwt expired". */
  lemma GateRejectsExpiredToken(accounts: map<Id, Account>, a: Account, env: Env)
    requires GenerateAccessToken(a, env).Ok?
    ensures VerifyJwt(accounts, Request(Some(GenerateAccessToken(a, env).value), None), env, true)
         == Reject(ApiError(401, "jwt expired"))
  {
    Jwt.VerifySigned(AccessClaims(a), env.accessTokenSecret, env.accessTokenExpiry, true);
  }

  /** A valid access token whose account no longer exists is refused with 401 "Invalid Access Token". */
  lemma GateRejectsUnknownAccount(accounts: map<Id, Account>, a: Account, env: Env)
    requires a.id !in accounts
    requires GenerateAccessToken(a, env).Ok?
    ensures VerifyJwt(accounts, Request(Some(GenerateAccessToken(a, env).value), None), env, false)
         == Reject(ApiError(401, "Invalid Access Token"))
  {
    AccessTokenContents(a, env);
  }
}

=== FILE: bcrypt.dfy ===
/**
 * A stand-in for the `bcrypt` library as the account model uses it:
 * `bcrypt.hash(plain, cost)` and `bcrypt.compare(plain, hash)`.
 *
 * The hashed form keeps bcrypt's visible layout, "$2b$" followed by the
 * two-digit cost and "$", so that the cost can be read back from a stored
 * value.  What follows stands for salt and digest; here it is the plain
 * text itself, which is the simplest body for which the axioms the rest of
 * the model relies on can be proved:
 *   - a hashed form is never equal to the plain text that produced it;
 *   - `Compare(p, Hash(q, c))` holds exactly when `p == q`.
 */
module Bcrypt {
  import JsString

  /** The version tag that starts every hashed form. */
  const Version: string := "$2b$"

  /** The costs bcrypt accepts. */
  predicate ValidCost(cost: nat) {
    4 <= cost <= 31
  }

  /** The character of a decimal digit. */
  function Digit(d: nat): (c: char)
    requires d < 10
    ensures JsString.IsDigit(c) && c as int - '0' as int == d
  {
    ('0' as int + d) as char
  }

  /** `h` has the layout of a bcrypt hashed form: version, two cost digits, "$". */
  predicate IsHash(h: string) {
    |h| >= 7 && h[..4] == Version && JsString.IsDigit(h[4]) && JsString.IsDigit(h[5]) && h[6] == '$'
  }

  /** The cost recorded in a hashed form. */
  function Rounds(h: string): nat
    requires IsHash(h)
  {
    (h[4] as int - '0' as int) * 10 + (h[5] as int - '0' as int)
  }

  /** `bcrypt.hash(plain, cost)`: a hashed form that records its cost and differs from the plain text. */
  function Hash(plain: string, cost: nat): (h: string)
    requires ValidCost(cost)
    ensures IsHash(h) && Rounds(h) == cost
    ensures h != plain && |h| > |plain|
  {
    Version + [Digit(cost / 10), Digit(cost % 10)] + "$" + plain
  }

  /** `bcrypt.compare(plain, h)`: false, never an error, when `h` is not a hashed form or does not match. */
  function Compare(plain: string, h: string): (r: bool)
    ensures r ==> IsHash(h) && h != plain
  {
    IsHash(h) && h[7..] == plain
  }

  /** The verification axiom: a hashed form accepts exactly the plain text it was made from. */
  lemma CompareHash(p: string, q: string, cost: nat)
    requires ValidCost(cost)
    ensures Compare(p, Hash(q, cost)) <==> p == q
  {
    assert Hash(q, cost)[7..] == q;
  }

  /** Hashing an already hashed value locks the owner out: the plain text no longer matches. */
  lemma RehashRejectsPlain(p: string, cost: nat)
    requires ValidCost(cost)
    ensures !Compare(p, Hash(Hash(p, cost), cost))
  {
    CompareHash(p, Hash(p, cost), cost);
  }
}

=== FILE: js_string.dfy ===
/**
 * The JavaScript string built-ins the credential code relies on:
 * `String.prototype.trim`, `toLowerCase`, `indexOf`, `replace` with a
 * string pattern, and truthiness of a possibly-undefined string.
 */
module JsString {
  import opened Wrappers

  /** The characters `trim` removes: ECMAScript WhiteSpace and LineTerminator. */
  predicate IsWhitespace(c: char) {
    c == '\t' || c == '\n' || c == '\U{0B}' || c == '\U{0C}' || c == '\r' || c == ' '
    || c == '\U{A0}' || c == '\U{1680}' || ('\U{2000}' <= c <= '\U{200A}')
    || c == '\U{2028}' || c == '\U{2029}' || c == '\U{202F}' || c == '\U{205F}'
    || c == '\U{3000}' || c == '\U{FEFF}'
  }

  /** A decimal digit character. */
  predicate IsDigit(c: char) {
    '0' <= c <= '9'
  }

  /** Every character of `s` is white space. */
  ghost predicate Blank(s: string) {
    forall k :: 0 <= k < |s| ==> IsWhitespace(s[k])
  }

  /** Length of the white-space run at the start of `s`. */
  function LeadingSpace(s: string): (n: nat)
    ensures n <= |s|
    ensures forall k :: 0 <= k < n ==> IsWhitespace(s[k])
    ensures n < |s| ==> !IsWhitespace(s[n])
  {
    if |s| > 0 && IsWhitespace(s[0]) then 1 + LeadingSpace(s[1..]) else 0
  }

  /** Length of the white-space run at the end of `s`. */
  function TrailingSpace(s: string): (n: nat)
    ensures n <= |s|
    ensures forall k :: |s| - n <= k < |s| ==> IsWhitespace(s[k])
    ensures n < |s| ==> !IsWhitespace(s[|s| - 1 - n])
  {
    if |s| > 0 && IsWhitespace(s[|s| - 1]) then 1 + TrailingSpace(s[..|s| - 1]) else 0
  }

  /** `s` neither starts nor ends with white space. */
  predicate IsTrimmed(s: string) {
    s == "" || (!IsWhitespace(s[0]) && !IsWhitespace(s[|s| - 1]))
  }

  /**
   * `s.trim()`: the longest middle part of `s` that neither starts nor ends
   * with white space; what is cut off on either side is white space only.
   */
  function Trim(s: string): (r: string)
    ensures IsTrimmed(r)
    ensures exists i :: 0 <= i <= |s| - |r| && s[i..i + |r|] == r && Blank(s[..i]) && Blank(s[i + |r|..])
    ensures r == "" <==> Blank(s)
  {
    var i := LeadingSpace(s);
    var t := s[i..];
    var r := t[..|t| - TrailingSpace(t)];
    assert s[i..i + |r|] == r;
    assert Blank(s[..i]);
    assert Blank(s[i + |r|..]) by {
      assert s[i + |r|..] == t[|r|..];
    }
    r
  }

  /** Trimming a string that is already trimmed changes nothing. */
  lemma TrimOfTrimmed(s: string)
    requires IsTrimmed(s)
    ensures Trim(s) == s
  {
    assert LeadingSpace(s) == 0;
    assert TrailingSpace(s) == 0;
  }

  /** `trim` is idempotent. */
  lemma TrimIdempotent(s: string)
    ensures Trim(Trim(s)) == Trim(s)
  {
    TrimOfTrimmed(Trim(s));
  }

  /** `toLowerCase` on one character: only ASCII letters are mapped. */
  function LowerChar(c: char): char {
    if 'A' <= c <= 'Z' then (c as int + 32) as char else c
  }

  /** `s.toLowerCase()`, restricted to the ASCII letters. */
  function ToLower(s: string): (r: string)
    ensures |r| == |s|
    ensures forall k :: 0 <= k < |s| ==> r[k] == LowerChar(s[k])
  {
    if s == "" then "" else [LowerChar(s[0])] + ToLower(s[1..])
  }

  /** Every character of `s` is already in lower case. */
  ghost predicate IsLower(s: string) {
    forall k :: 0 <= k < |s| ==> LowerChar(s[k]) == s[k]
  }

  /** What `toLowerCase` returns needs no further lowering, and lowering keeps white space where it was. */
  lemma ToLowerProperties(s: string)
    ensures IsLower(ToLower(s))
    ensures ToLower(ToLower(s)) == ToLower(s)
    ensures forall k :: 0 <= k < |s| ==> (IsWhitespace(ToLower(s)[k]) <==> IsWhitespace(s[k]))
  {
  }

  /** Lowering a string that is already lower case changes nothing. */
  lemma ToLowerOfLower(s: string)
    requires IsLower(s)
    ensures ToLower(s) == s
  {
  }

  /** A string is blank after lowering exactly when it was blank before. */
  lemma BlankToLower(s: string)
    ensures Blank(ToLower(s)) <==> Blank(s)
  {
    ToLowerProperties(s);
    if Blank(s) {
      forall k | 0 <= k < |s| ensures IsWhitespace(ToLower(s)[k]) {
        assert IsWhitespace(s[k]);
      }
    }
    if Blank(ToLower(s)) {
      forall k | 0 <= k < |s| ensures IsWhitespace(s[k]) {
        assert IsWhitespace(ToLower(s)[k]);
      }
    }
  }

  /** Trimming a lower-case string leaves it lower case. */
  lemma TrimKeepsLower(s: string)
    requires IsLower(s)
    ensures IsLower(Trim(s))
  {
    var r := Trim(s);
    var i :| 0 <= i <= |s| - |r| && s[i..i + |r|] == r && Blank(s[..i]) && Blank(s[i + |r|..]);
    forall k | 0 <= k < |r| ensures LowerChar(r[k]) == r[k] {
      assert r[k] == s[i + k];
    }
  }

  /** `pat` occurs in `s` starting at index `i`. */
  predicate OccursAt(s: string, pat: string, i: nat) {
    i + |pat| <= |s| && s[i..i + |pat|] == pat
  }

  /** `s.indexOf(pat)`: the first index where `pat` occurs, `None` for -1. */
  function IndexOf(s: string, pat: string): (r: Option<nat>)
    ensures r.Some? ==> OccursAt(s, pat, r.value)
    ensures r.Some? ==> forall j: nat :: j < r.value ==> !OccursAt(s, pat, j)
    ensures r.None? ==> forall j: nat :: j <= |s| ==> !OccursAt(s, pat, j)
    decreases |s|
  {
    if OccursAt(s, pat, 0) then Some(0)
    else if s == "" then None
    else
      var r := IndexOf(s[1..], pat);
      OccursShift(s, pat);
      match r
      case None => None
      case Some(i) => Some(i + 1)
  }

  /** An occurrence in `s` after its first character is an occurrence in `s[1..]`, one place earlier. */
  lemma OccursShift(s: string, pat: string)
    requires s != ""
    ensures forall j: nat :: 0 < j ==> (OccursAt(s, pat, j) <==> OccursAt(s[1..], pat, j - 1))
  {
    forall j: nat | 0 < j ensures OccursAt(s, pat, j) <==> OccursAt(s[1..], pat, j - 1) {
      if j + |pat| <= |s| {
        var a, b := s[j..j + |pat|], s[1..][j - 1..j - 1 + |pat|];
        forall k | 0 <= k < |a| ensures a[k] == b[k] {}
        assert a == b;
      }
    }
  }

  /**
   * `s.replace(pat, rep)` with a string pattern and a replacement without
   * "$" patterns: only the first occurrence is replaced.
   */
  function ReplaceFirst(s: string, pat: string, rep: string): (r: string)
    ensures IndexOf(s, pat).None? ==> r == s
    ensures IndexOf(s, pat).Some? ==>
      var i := IndexOf(s, pat).value;
      |r| == |s| - |pat| + |rep| && r[..i] == s[..i] && r[i..i + |rep|] == rep && r[i + |rep|..] == s[i + |pat|..]
  {
    match IndexOf(s, pat)
    case None => s
    case Some(i) => s[..i] + rep + s[i + |pat|..]
  }

  /** Removing a leading pattern gives back what followed it, whatever that is. */
  lemma ReplaceLeading(pat: string, t: string)
    ensures ReplaceFirst(pat + t, pat, "") == t
  {
    assert OccursAt(pat + t, pat, 0);
    assert (pat + t)[|pat|..] == t;
  }

  /** JavaScript truthiness of a string that may be `undefined`: defined and not empty. */
  predicate Truthy(o: Option<string>) {
    o.Some? && o.value != ""
  }
}

=== FILE: jwt.dfy ===
/**
 * A stand-in for the `jsonwebtoken` library as the account model and the
 * authentication gate use it: `jwt.sign(payload, secret, { expiresIn })`
 * and `jwt.verify(token, secret)`.
 *
 * A token is a string.  Its body lists the `expiresIn` option and the
 * payload's claims in insertion order; the signature is a tag computed from
 * the secret and the body.  Both are put together by an escaping
 * serialisation that is proved to round-trip.  The tag is injective in the
 * secret, which is all the model needs of an HMAC: a token signed with one
 * secret does not verify under another.  Clock-based expiry is a boolean
 * the caller supplies.
 */
module Jwt {
  import opened Wrappers
  import Timespan

  /** One payload property, `name: value`, as the JSON object lists it. */
  datatype Claim = Claim(name: string, value: string)

  /** What `jwt.verify` returns: the payload, and the expiry it was signed with. */
  datatype Decoded = Decoded(payload: seq<Claim>, expiresIn: string)

  /** The signing algorithm named in every signature. */
  const Algorithm: string := "HS256"

  // ---------------------------------------------------------------------
  // Serialisation of a list of strings into one string

  /** Each character `c` becomes "0" followed by `c`. */
  function Escape(f: string): (e: string)
    ensures |e| == 2 * |f|
  {
    if f == "" then "" else ['0', f[0]] + Escape(f[1..])
  }

  /** Every field escaped and closed by "1". */
  function Serialize(fields: seq<string>): string {
    if fields == [] then "" else Escape(fields[0]) + "1" + Serialize(fields[1..])
  }

  /** Reads one escaped field and its closing "1"; gives the field and what follows. */
  function ParseField(s: string): (r: Option<(string, string)>)
    ensures r.Some? ==> |r.value.1| < |s|
  {
    if s == "" then None
    else if s[0] == '1' then Some(("", s[1..]))
    else if s[0] == '0' && |s| >= 2 then
      match ParseField(s[2..])
      case None => None
      case Some((f, rest)) => Some(([s[1]] + f, rest))
    else None
  }

  /** Reads a whole serialised list; `None` when `s` is not one. */
  function Deserialize(s: string): Option<seq<string>>
    decreases |s|
  {
    if s == "" then Some([])
    else match ParseField(s)
      case None => None
      case Some((f, rest)) =>
        match Deserialize(rest)
        case None => None
        case Some(fs) => Some([f] + fs)
  }

  lemma {:induction false} ParseEscaped(f: string, rest: string)
    ensures ParseField(Escape(f) + "1" + rest) == Some((f, rest))
  {
    var s := Escape(f) + "1" + rest;
    if f == "" {
      assert s == "1" + rest;
    } else {
      assert s == ['0', f[0]] + (Escape(f[1..]) + "1" + rest);
      assert s[2..] == Escape(f[1..]) + "1" + rest;
      ParseEscaped(f[1..], rest);
      assert [f[0]] + f[1..] == f;
    }
  }

  lemma {:induction false} ParsedField(s: string)
    requires ParseField(s).Some?
    ensures s == Escape(ParseField(s).value.0) + "1" + ParseField(s).value.1
  {
    if s[0] == '1' {
      assert s == "1" + s[1..];
    } else {
      ParsedField(s[2..]);
      var (f, rest) := ParseField(s[2..]).value;
      assert ([s[1]] + f)[1..] == f;
      assert s == ['0', s[1]] + s[2..];
    }
  }

  /** Reading back a serialised list gives the list. */
  lemma {:induction false} DeserializeSerialize(fs: seq<string>)
    ensures Deserialize(Serialize(fs)) == Some(fs)
  {
    if fs != [] {
      ParseEscaped(fs[0], Serialize(fs[1..]));
      DeserializeSerialize(fs[1..]);
      assert [fs[0]] + fs[1..] == fs;
    }
  }

  /** A string that reads as a list is the serialisation of that list. */
  lemma {:induction false} SerializeDeserialize(s: string)
    requires Deserialize(s).Some?
    ensures Serialize(Deserialize(s).value) == s
    decreases |s|
  {
    if s != "" {
      var (f, rest) := ParseField(s).value;
      ParsedField(s);
      SerializeDeserialize(rest);
      var fs := Deserialize(s).value;
      assert fs[0] == f && fs[1..] == Deserialize(rest).value;
    }
  }

  /** Two lists with the same serialisation are the same list. */
  lemma SerializeInjective(a: seq<string>, b: seq<string>)
    requires Serialize(a) == Serialize(b)
    ensures a == b
  {
    DeserializeSerialize(a);
    DeserializeSerialize(b);
  }

  // ---------------------------------------------------------------------
  // Payloads

  /** The claims as alternating names and values. */
  function Flatten(p: seq<Claim>): (fs: seq<string>)
    ensures |fs| == 2 * |p|
  {
    if p == [] then [] else [p[0].name, p[0].value] + Flatten(p[1..])
  }

  /** Pairs alternating names and values back into claims; `None` for an odd count. */
  function Unflatten(fs: seq<string>): Option<seq<Claim>>
    decreases |fs|
  {
    if fs == [] then Some([])
    else if |fs| == 1 then None
    else match Unflatten(fs[2..])
      case None => None
      case Some(p) => Some([Claim(fs[0], fs[1])] + p)
  }

  lemma {:induction false} UnflattenFlatten(p: seq<Claim>)
    ensures Unflatten(Flatten(p)) == Some(p)
  {
    if p != [] {
      var fs := Flatten(p);
      assert fs[2..] == Flatten(p[1..]);
      UnflattenFlatten(p[1..]);
      assert [p[0]] + p[1..] == p;
    }
  }

  lemma {:induction false} FlattenUnflatten(fs: seq<string>)
    requires Unflatten(fs).Some?
    ensures Flatten(Unflatten(fs).value) == fs
    decreases |fs|
  {
    if fs != [] {
      FlattenUnflatten(fs[2..]);
      var p := Unflatten(fs).value;
      assert p[1..] == Unflatten(fs[2..]).value;
      assert fs == [fs[0], fs[1]] + fs[2..];
    }
  }

  /** `decoded.name`: the value of the named property, the last one when JSON repeats a name. */
  function ClaimValue(p: seq<Claim>, name: string): (r: Option<string>)
    ensures r.Some? ==> Claim(name, r.value) in p
    ensures r.Some? ==> exists i :: 0 <= i < |p| && p[i] == Claim(name, r.value) && LastNamed(p, name, i)
    ensures r.None? ==> forall c :: c in p ==> c.name != name
  {
    if p == [] then None
    else if p[|p| - 1].name == name then Some(p[|p| - 1].value)
    else
      assert p == p[..|p| - 1] + [p[|p| - 1]];
      var r := ClaimValue(p[..|p| - 1], name);
      if r.Some? then LastNamedExtends(p, p[..|p| - 1], name, r.value); r else r
  }

  /** No claim after position `i` carries the name `name`. */
  ghost predicate LastNamed(p: seq<Claim>, name: string, i: nat) {
    forall j :: i < j < |p| ==> p[j].name != name
  }

  /** The last claim named `name` before a final claim of another name is still the last one. */
  lemma LastNamedExtends(p: seq<Claim>, front: seq<Claim>, name: string, v: string)
    requires |p| > 0 && front == p[..|p| - 1] && p[|p| - 1].name != name
    requires exists i :: 0 <= i < |front| && front[i] == Claim(name, v) && LastNamed(front, name, i)
    ensures exists i :: 0 <= i < |p| && p[i] == Claim(name, v) && LastNamed(p, name, i)
  {
    var i :| 0 <= i < |front| && front[i] == Claim(name, v) && LastNamed(front, name, i);
    assert p[i] == Claim(name, v) && LastNamed(p, name, i);
  }

  // ---------------------------------------------------------------------
  // Signing and verification

  /** The signature of `body` under `secret`. */
  function Signature(secret: string, body: string): string {
    Serialize([Algorithm, secret, body])
  }

  /** What `jwt.sign` throws when `expiresIn` is not a non-empty string. */
  const ExpiresInInvalid: string := "\"expiresIn\" should be a number of seconds or string representing a timespan"

  /**
   * `jwt.sign(payload, secret, { expiresIn })`, its checks in the library's
   * order: the secret is set, `expiresIn` is a non-empty string, and `ms`
   * can read it as a time span.  Each failure is the message it throws.
   */
  function Sign(payload: seq<Claim>, secret: string, expiresIn: string): (r: Result<string, string>)
    ensures r.Ok? <==> secret != "" && Timespan.IsTimespan(expiresIn)
    ensures secret == "" ==> r == Err("secretOrPrivateKey must have a value")
  {
    if secret == "" then Err("secretOrPrivateKey must have a value")
    else if expiresIn == "" then Err(ExpiresInInvalid)
    else if !Timespan.IsTimespan(expiresIn) then Err(ExpiresInInvalid + " eg: \"1d\", \"20h\", 60")
    else
      var body := Serialize([expiresIn] + Flatten(payload));
      Ok(Serialize([body, Signature(secret, body)]))
  }

  /**
   * `jwt.verify(token, secret)`, its checks in the library's order: shape,
   * payload, secret present, signature, expiry value, expiry.  The error
   * is the message the library throws.  A token passes only under a set
   * secret, while unexpired, and with an expiry `sign` would accept.
   */
  function Verify(token: string, secret: string, expired: bool): (r: Result<Decoded, string>)
    ensures r.Ok? ==> secret != "" && !expired && Timespan.IsTimespan(r.value.expiresIn)
  {
    match Deserialize(token)
    case None => Err("jwt malformed")
    case Some(parts) =>
      if |parts| != 2 then Err("jwt malformed")
      else match Deserialize(parts[0])
        case None => Err("invalid token")
        case Some(fields) =>
          if |fields| == 0 || Unflatten(fields[1..]).None? then Err("invalid token")
          else if secret == "" then Err("secret or public key must be provided")
          else if parts[1] != Signature(secret, parts[0]) then Err("invalid signature")
          else if !Timespan.IsTimespan(fields[0]) then Err("invalid exp value")
          else if expired then Err("jwt expired")
          else Ok(Decoded(Unflatten(fields[1..]).value, fields[0]))
  }

  /** A token verifies under the secret it was signed with, giving back its payload, until it expires. */
  lemma VerifySigned(payload: seq<Claim>, secret: string, expiresIn: string, expired: bool)
    requires Sign(payload, secret, expiresIn).Ok?
    ensures Verify(Sign(payload, secret, expiresIn).value, secret, expired)
         == if expired then Err("jwt expired") else Ok(Decoded(payload, expiresIn))
  {
    var fields := [expiresIn] + Flatten(payload);
    var body := Serialize(fields);
    DeserializeSerialize([body, Signature(secret, body)]);
    DeserializeSerialize(fields);
    assert fields[1..] == Flatten(payload);
    UnflattenFlatten(payload);
  }

  /** Only a token signed with `secret` verifies under it, and only while it has not expired. */
  lemma VerifyOnlySigned(token: string, secret: string, expired: bool)
    requires Verify(token, secret, expired).Ok?
    ensures !expired
    ensures Sign(Verify(token, secret, expired).value.payload, secret, Verify(token, secret, expired).value.expiresIn) == Ok(token)
  {
    var parts := Deserialize(token).value;
    var fields := Deserialize(parts[0]).value;
    SerializeDeserialize(token);
    SerializeDeserialize(parts[0]);
    FlattenUnflatten(fields[1..]);
    assert fields == [fields[0]] + fields[1..];
    assert parts == [parts[0], parts[1]];
  }

  /** A token signed with one secret is refused under any other. */
  lemma OtherSecretRejected(payload: seq<Claim>, a: string, b: string, expiresIn: string, expired: bool)
    requires a != b && Sign(payload, a, expiresIn).Ok?
    ensures Verify(Sign(payload, a, expiresIn).value, b, expired).Err?
  {
    var body := Serialize([expiresIn] + Flatten(payload));
    DeserializeSerialize([body, Signature(a, body)]);
    DeserializeSerialize([expiresIn] + Flatten(payload));
    if Signature(a, body) == Signature(b, body) {
      SerializeInjective([Algorithm, a, body], [Algorithm, b, body]);
    }
  }
}

=== FILE: timespan.dfy ===
/**
 * The time spans `jsonwebtoken` accepts for `expiresIn` when it is a
 * string: those the `ms` package parses.  A string longer than 100
 * characters is refused; otherwise it must be a decimal number (an
 * optional "-", then digits, or digits, a point and digits), any number of
 * spaces, and an optional unit, letters in any case.  A bare number is
 * read as milliseconds.
 */
module Timespan {
  import JsString

  /** The units `ms` knows, lower case; "" stands for no unit. */
  const Units: set<string> := {
    "", "years", "year", "yrs", "yr", "y", "weeks", "week", "w",
    "days", "day", "d", "hours", "hour", "hrs", "hr", "h",
    "minutes", "minute", "mins", "min", "m", "seconds", "second", "secs", "sec", "s",
    "milliseconds", "millisecond", "msecs", "msec", "ms"}

  /** The longest string `ms` parses. */
  const MaxLength: nat := 100

  /**
   * `s[i..]` continues a number, `(?:\d+)?\.?\d+`, and then the rest of a
   * time span: `inFraction` says a point was read, `sawDigit` that a digit
   * was read since the start or the point.
   */
  predicate ReadNumber(s: string, i: nat, inFraction: bool, sawDigit: bool)
    requires i <= |s|
    decreases |s| - i
  {
    if i < |s| && JsString.IsDigit(s[i]) then ReadNumber(s, i + 1, inFraction, true)
    else if i < |s| && s[i] == '.' && !inFraction then ReadNumber(s, i + 1, true, false)
    else sawDigit && ReadUnit(s, i)
  }

  /** `s[i..]` is any number of spaces and then a known unit in any case. */
  predicate ReadUnit(s: string, i: nat)
    requires i <= |s|
    decreases |s| - i
  {
    if i < |s| && s[i] == ' ' then ReadUnit(s, i + 1)
    else JsString.ToLower(s[i..]) in Units
  }

  /** Where the number starts: after a leading "-", if any. */
  function NumberStart(s: string): nat {
    if |s| > 0 && s[0] == '-' then 1 else 0
  }

  /** `ms(s)` is defined. */
  predicate IsTimespan(s: string) {
    |s| <= MaxLength && NumberStart(s) <= |s| && ReadNumber(s, NumberStart(s), false, false)
  }

  /** A number that has been read to its end holds a digit: one already read, or one still ahead. */
  lemma {:induction false} ReadNumberHasDigit(s: string, i: nat, inFraction: bool, sawDigit: bool)
    requires i <= |s| && ReadNumber(s, i, inFraction, sawDigit)
    ensures sawDigit || (i < |s| && (JsString.IsDigit(s[i]) || s[i] == '.'))
    ensures sawDigit || exists k :: i <= k < |s| && JsString.IsDigit(s[k])
    decreases |s| - i
  {
    if i < |s| && JsString.IsDigit(s[i]) {
    } else if i < |s| && s[i] == '.' && !inFraction {
      ReadNumberHasDigit(s, i + 1, true, false);
    }
  }

  /**
   * Every time span is non-empty, starts with a sign, a digit or a point,
   * and holds a digit; so the empty string and a string with a letter
   * before its number are not time spans.
   */
  lemma TimespanShape(s: string)
    requires IsTimespan(s)
    ensures s != "" && |s| <= MaxLength
    ensures s[0] == '-' || JsString.IsDigit(s[0]) || s[0] == '.'
    ensures exists k :: 0 <= k < |s| && JsString.IsDigit(s[k])
  {
    ReadNumberHasDigit(s, NumberStart(s), false, false);
  }

  /** "10d", ten days, and "1.5 Hours" are time spans. */
  lemma TimespansAccepted()
    ensures IsTimespan("10d") && IsTimespan("1.5 Hours")
  {
    assert IsTimespan("10d") by {
      JsString.ToLowerOfLower("d");
      assert "10d"[2..] == "d";
    }
    assert "1.5 Hours"[4..] == "Hours";
    assert JsString.ToLower("Hours") == "hours";
  }

  /** The empty string and "ten days" are not time spans. */
  lemma TimespansRefused()
    ensures !IsTimespan("") && !IsTimespan("ten days")
  {
    if IsTimespan("ten days") {
      TimespanShape("ten days");
    }
  }
}

=== FILE: user_controller.dfy ===
/**
 * The session operations of src/controllers/user.controller.js over the
 * `users` collection: `generateAccessAndRefreshTokens`, `registerUser`,
 * `loginUser` and `logoutUser`.
 *
 * Each operation is specified by a function from the collection before the
 * request to the response and the collection after it; the methods of
 * `UserCollection` perform the same steps on documents and are proved to
 * agree with those functions.  Uploads, the new `_id` and the clock are
 * parameters.
 */
module UserController {
  import opened Wrappers
  import JsString
  import Bcrypt
  import Jwt
  import Timespan
  import opened Api
  import opened UserModel
  import AuthMiddleware

  /** The `users` collection: accounts by `_id`, and the natural order `findOne` scans them in. */
  datatype Store = Store(accounts: map<Id, Account>, order: seq<Id>)

  /** A response together with the collection it leaves behind. */
  datatype Outcome<+T> = Outcome(response: Response<T>, after: Store)

  /**
   * What holds of the collection between requests: every account is listed
   * once in the natural order under its own `_id`, conforms to the schema,
   * stores a hashed password, and no two accounts share a username or an
   * email.
   */
  ghost predicate Consistent(s: Store) {
    && (forall id :: id in s.accounts <==> id in s.order)
    && (forall i, j :: 0 <= i < j < |s.order| ==> s.order[i] != s.order[j])
    && (forall id :: id in s.accounts ==>
          s.accounts[id].id == id && Conforms(s.accounts[id]) && Bcrypt.IsHash(s.accounts[id].password))
    && (forall id1, id2 :: id1 in s.accounts && id2 in s.accounts && id1 != id2 ==>
          s.accounts[id1].username != s.accounts[id2].username && s.accounts[id1].email != s.accounts[id2].email)
  }

  // ---------------------------------------------------------------------
  // findOne({ $or: [{ username }, { email }] })

  /** The filter `{ $or: [{ username }, { email }] }` with the request's values. */
  datatype OrFilter = OrFilter(username: Option<string>, email: Option<string>)

  /** One condition `{ path: value }`: the value goes through the path's setters; an undefined value matches nothing. */
  predicate ConditionHolds(stored: string, value: Option<string>) {
    value.Some? && stored == CastIdentifier(value.value)
  }

  predicate Matches(a: Account, f: OrFilter) {
    ConditionHolds(a.username, f.username) || ConditionHolds(a.email, f.email)
  }

  /** One condition as Mongoose runs it: an undefined value is dropped, leaving `{}`, which every document matches. */
  predicate ConditionHoldsAsWritten(stored: string, value: Option<string>) {
    value.None? || stored == CastIdentifier(value.value)
  }

  predicate MatchesAsWritten(a: Account, f: OrFilter) {
    ConditionHoldsAsWritten(a.username, f.username) || ConditionHoldsAsWritten(a.email, f.email)
  }

  /** The position in `order` of the first account that satisfies `p`. */
  function FirstMatch(accounts: map<Id, Account>, order: seq<Id>, p: Account -> bool): (r: Option<nat>)
    ensures r.Some? ==> r.value < |order| && order[r.value] in accounts && p(accounts[order[r.value]])
    ensures r.Some? ==> forall j :: 0 <= j < r.value && order[j] in accounts ==> !p(accounts[order[j]])
    ensures r.None? ==> forall j :: 0 <= j < |order| && order[j] in accounts ==> !p(accounts[order[j]])
  {
    if order == [] then None
    else if order[0] in accounts && p(accounts[order[0]]) then Some(0)
    else
      match FirstMatch(accounts, order[1..], p)
      case None => None
      case Some(k) => Some(k + 1)
  }

  /** `User.findOne(filter)`: the first matching account in natural order, or none when none matches. */
  function FindOne(s: Store, f: OrFilter): (r: Option<nat>)
    ensures r.Some? ==> r.value < |s.order| && s.order[r.value] in s.accounts && Matches(s.accounts[s.order[r.value]], f)
    ensures r.None? ==> forall j :: 0 <= j < |s.order| && s.order[j] in s.accounts ==> !Matches(s.accounts[s.order[j]], f)
  {
    FirstMatch(s.accounts, s.order, a => Matches(a, f))
  }

  /**
   * `User.findOne(filter)` with Mongoose's treatment of undefined values:
   * as soon as either value is undefined, the first stored account in
   * natural order matches.
   */
  function FindOneAsWritten(s: Store, f: OrFilter): (r: Option<nat>)
    ensures r.Some? ==> r.value < |s.order| && s.order[r.value] in s.accounts && MatchesAsWritten(s.accounts[s.order[r.value]], f)
    ensures (f.username.None? || f.email.None?) && |s.order| > 0 && s.order[0] in s.accounts ==> r == Some(0)
  {
    FirstMatch(s.accounts, s.order, a => MatchesAsWritten(a, f))
  }

  /** In a consistent collection, `findOne` finds nothing exactly when no account matches either condition. */
  lemma FindOneNone(s: Store, f: OrFilter)
    requires Consistent(s)
    ensures FindOne(s, f).None? <==> forall id :: id in s.accounts ==> !Matches(s.accounts[id], f)
    ensures FindOne(s, f).Some? ==> Matches(s.accounts[s.order[FindOne(s, f).value]], f)
  {
    if FindOne(s, f).None? {
      forall id | id in s.accounts ensures !Matches(s.accounts[id], f) {
        var j :| 0 <= j < |s.order| && s.order[j] == id;
      }
    }
  }

  /**
   * As written, a login that gives only an email matches the first account
   * in natural order, whatever its email; the intended query finds the
   * account with that email instead.
   */
  lemma EmailOnlyLoginMatchesFirstAccount(s: Store, email: string, k: nat)
    requires Consistent(s)
    requires 0 < k < |s.order| && s.accounts[s.order[k]].email == CastIdentifier(email)
    ensures FindOneAsWritten(s, OrFilter(None, Some(email))) == Some(0)
    ensures s.accounts[s.order[0]].email != CastIdentifier(email)
    ensures FindOne(s, OrFilter(None, Some(email))) == Some(k)
  {
    var f := OrFilter(None, Some(email));
    assert s.order[0] in s.accounts;
    assert s.order[k] in s.accounts;
    assert s.order[0] != s.order[k];
    FindOneNone(s, f);
    var r := FindOne(s, f).value;
    assert Matches(s.accounts[s.order[r]], f);
    assert s.order[r] in s.accounts;
  }

  // ---------------------------------------------------------------------
  // registerUser

  datatype RegisterBody = RegisterBody(
    fullName: Option<string>,
    email: Option<string>,
    username: Option<string>,
    password: Option<string>)

  /** A file stored by the upload middleware; only its path is read. */
  datatype LocalFile = LocalFile(path: string)

  /** `req.files`: the lists under the `avatar` and `coverImage` fields, when present. */
  datatype Files = Files(avatar: Option<seq<LocalFile>>, coverImage: Option<seq<LocalFile>>)

  /** `fields.some((field) => field?.trim() === "")`: a defined field that trims to nothing; undefined never counts. */
  function AnyBlank(fields: seq<Option<string>>): (r: bool)
    ensures r <==> exists k :: 0 <= k < |fields| && fields[k].Some? && JsString.Trim(fields[k].value) == ""
  {
    if fields == [] then false
    else (fields[0].Some? && JsString.Trim(fields[0].value) == "") || AnyBlank(fields[1..])
  }

  /**
   * `req.files?.avatar[0]?.path`: undefined without `req.files` or with an
   * empty list; a `TypeError` when `req.files` has no `avatar` list.
   */
  function AvatarLocalPath(files: Option<Files>): (r: Result<Option<string>, string>)
    ensures r.Err? <==> files.Some? && files.value.avatar.None?
    ensures r == Ok(None) <==> files.None? || files.value.avatar == Some([])
  {
    match files
    case None => Ok(None)
    case Some(f) =>
      match f.avatar
      case None => Err("Cannot read properties of undefined (reading '0')")
      case Some(list) => if list == [] then Ok(None) else Ok(Some(list[0].path))
  }

  /**
   * The path of the first `coverImage` file, when `req.files` holds a
   * non-empty list of them; unlike the avatar's, this lookup never throws.
   */
  function CoverImageLocalPath(files: Option<Files>): (r: Option<string>)
    ensures r.Some? <==> files.Some? && files.value.coverImage.Some? && files.value.coverImage.value != []
    ensures r.Some? ==> r.value == files.value.coverImage.value[0].path
  {
    if files.Some? && files.value.coverImage.Some? && |files.value.coverImage.value| > 0
    then Some(files.value.coverImage.value[0].path)
    else None
  }

  const UserValidationFailed: string := "User validation failed"
  const DuplicateKeyError: string := "E11000 duplicate key error"

  /** Some stored account already has `a`'s username or email. */
  predicate Clashes(s: Store, a: Account) {
    exists k :: k in s.accounts && (s.accounts[k].username == a.username || s.accounts[k].email == a.email)
  }

  /**
   * `User.create(fields)` under `_id` `id`: cast, validate the required
   * paths, run the pre-save hook, insert; the unique indexes on `_id`,
   * `username` and `email` refuse a duplicate.  Valid values under an
   * unused `_id` that clash with no stored account are always inserted;
   * the stored account is the cast values with the password hashed, and
   * every other account is left as it was.
   */
  function Insert(s: Store, fields: Fields, id: Id): (r: Result<Store, string>)
    ensures r.Ok? ==> id in r.value.accounts
    ensures RequiredErrors(Cast(fields)) != [] ==> r == Err(UserValidationFailed)
    ensures RequiredErrors(Cast(fields)) == [] ==>
      (r.Ok? <==> id !in s.accounts && !Clashes(s, NewAccount(id, Cast(fields))))
    ensures RequiredErrors(Cast(fields)) == [] && r.Err? ==> r == Err(DuplicateKeyError)
    ensures r.Ok? ==> id !in s.accounts && r.value.order == s.order + [id] && r.value.accounts.Keys == s.accounts.Keys + {id}
    ensures r.Ok? ==> forall k :: k in s.accounts ==> r.value.accounts[k] == s.accounts[k]
    ensures r.Ok? ==>
      && RequiredErrors(Cast(fields)) == []
      && r.value.accounts[id].(password := Cast(fields).password.value) == NewAccount(id, Cast(fields))
    ensures r.Ok? ==> Bcrypt.Compare(Cast(fields).password.value, r.value.accounts[id].password)
    ensures r.Ok? ==> !Clashes(s, r.value.accounts[id]) && Bcrypt.IsHash(r.value.accounts[id].password)
  {
    var f := Cast(fields);
    if RequiredErrors(f) != [] then Err(UserValidationFailed)
    else
      var a := PreSaveHook(NewAccount(id, f), true);
      if id in s.accounts || Clashes(s, a) then Err(DuplicateKeyError)
      else Ok(Store(s.accounts[id := a], s.order + [id]))
  }

  /**
   * The values `registerUser` hands to `User.create`; `coverUrl` is the
   * cover's URL, if any.  Lowering the username first makes no difference
   * once the setters have run, and `coverImage` is always set, to "" when
   * there is no cover.
   */
  function RegisterFields(body: RegisterBody, avatarUrl: string, coverUrl: Option<string>): (r: Fields)
    requires body.username.Some?
    ensures Cast(r).username == Some(CastIdentifier(body.username.value))
    ensures r.email == body.email && r.fullName == body.fullName && r.password == body.password
    ensures r.avatar == Some(avatarUrl) && r.coverImage.Some?
    ensures coverUrl.Some? ==> r.coverImage == coverUrl
  {
    CastIdentifierLowered(body.username.value);
    Fields(Some(JsString.ToLower(body.username.value)), body.email, body.fullName, Some(avatarUrl),
           Some(if coverUrl.Some? then coverUrl.value else ""), body.password)
  }

  /**
   * `registerUser`.  `avatarUpload` and `coverUpload` are the `secure_url`s
   * the uploader returns for the avatar and the cover, or nothing when an
   * upload fails; `newId` is the `_id` the driver assigns.
   */
  function Register(s: Store, body: RegisterBody, files: Option<Files>,
                    avatarUpload: Option<string>, coverUpload: Option<string>, newId: Id): (o: Outcome<UserView>)
    ensures o.response.Fail? ==> o.after == s
    ensures o.response.Success? ==> o.response.status == 201 && o.after.order == s.order + [o.response.value.id]
  {
    if AnyBlank([body.fullName, body.email, body.username, body.password]) then
      Outcome(Error(400, "All fields are required"), s)
    else if FindOne(s, OrFilter(body.username, body.email)).Some? then
      Outcome(Error(409, "User already exists"), s)
    else RegisterFiles(s, body, files, avatarUpload, coverUpload, newId)
  }

  /**
   * `registerUser` past the duplicate check: the local paths, the uploads,
   * `User.create` and the re-read.  A failure here changes nothing.
   */
  function RegisterFiles(s: Store, body: RegisterBody, files: Option<Files>,
                         avatarUpload: Option<string>, coverUpload: Option<string>, newId: Id): (o: Outcome<UserView>)
    ensures o.response.Fail? ==> o.after == s
    ensures o.response != Error(400, "All fields are required") && o.response != Error(409, "User already exists")
  {
    match AvatarLocalPath(files)
    case Err(reason) => Outcome(Fail(Uncaught(reason)), s)
    case Ok(avatarPath) =>
      if !JsString.Truthy(avatarPath) then Outcome(Error(400, "Avatar is required"), s)
      else
        var coverImage := if CoverImageLocalPath(files).Some? then coverUpload else None;
        if avatarUpload.None? then Outcome(Error(500, "Failed to upload avatar"), s)
        else if body.username.None? then
          Outcome(Fail(Uncaught("Cannot read properties of undefined (reading 'toLowerCase')")), s)
        else
          match Insert(s, RegisterFields(body, avatarUpload.value, coverImage), newId)
          case Err(reason) => Outcome(Fail(Uncaught(reason)), s)
          case Ok(created) =>
            if newId !in created.accounts then Outcome(Error(500, "Failed to create user"), s)
            else Outcome(Success(201, View(created.accounts[newId])), created)
  }

  /** The 400 "All fields are required" comes exactly from a defined field that is blank, and changes nothing. */
  lemma RegisterRejectsBlankFields(s: Store, body: RegisterBody, files: Option<Files>,
                                   avatarUpload: Option<string>, coverUpload: Option<string>, newId: Id)
    ensures var o := Register(s, body, files, avatarUpload, coverUpload, newId);
      && (o.response == Error(400, "All fields are required") <==>
            exists f :: f in [body.fullName, body.email, body.username, body.password] && f.Some? && JsString.Trim(f.value) == "")
      && (o.response == Error(400, "All fields are required") ==> o.after == s)
  {
    var fields := [body.fullName, body.email, body.username, body.password];
    if exists f :: f in fields && f.Some? && JsString.Trim(f.value) == "" {
      var f :| f in fields && f.Some? && JsString.Trim(f.value) == "";
      var k :| 0 <= k < |fields| && fields[k] == f;
    }
  }

  /**
   * An existing account with the same username or email gives 409 before
   * any file is looked at or uploaded, and changes nothing.
   */
  lemma RegisterRejectsDuplicate(s: Store, body: RegisterBody, files: Option<Files>,
                                 avatarUpload: Option<string>, coverUpload: Option<string>, newId: Id, id: Id)
    requires Consistent(s)
    requires !AnyBlank([body.fullName, body.email, body.username, body.password])
    requires id in s.accounts && Matches(s.accounts[id], OrFilter(body.username, body.email))
    ensures Register(s, body, files, avatarUpload, coverUpload, newId) == Outcome(Error(409, "User already exists"), s)
  {
    FindOneNone(s, OrFilter(body.username, body.email));
  }

  /**
   * Past the duplicate check, a missing avatar path gives 400 whatever the
   * uploader would do, and a failed avatar upload gives 500; a request that
   * fails at any step creates no account.
   */
  lemma RegisterAvatarChecks(s: Store, body: RegisterBody, files: Option<Files>,
                             avatarUpload: Option<string>, coverUpload: Option<string>, newId: Id)
    ensures var o := Register(s, body, files, avatarUpload, coverUpload, newId);
      o.response.Fail? ==> o.after == s
    ensures (&& !AnyBlank([body.fullName, body.email, body.username, body.password])
             && FindOne(s, OrFilter(body.username, body.email)).None? && AvatarLocalPath(files).Ok?) ==>
      && (!JsString.Truthy(AvatarLocalPath(files).value) ==>
            Register(s, body, files, avatarUpload, coverUpload, newId) == Outcome(Error(400, "Avatar is required"), s))
      && (JsString.Truthy(AvatarLocalPath(files).value) && avatarUpload.None? ==>
            Register(s, body, files, avatarUpload, coverUpload, newId) == Outcome(Error(500, "Failed to upload avatar"), s))
  {
  }

  /** The account `registerUser` stores for a successful request. */
  function Registered(body: RegisterBody, files: Option<Files>, avatarUrl: string, coverUpload: Option<string>, newId: Id): Account
    requires body.username.Some? && body.email.Some? && body.fullName.Some? && body.password.Some?
  {
    Account(newId, CastIdentifier(body.username.value), CastIdentifier(body.email.value), CastName(body.fullName.value),
            avatarUrl,
            Some(if CoverImageLocalPath(files).Some? && coverUpload.Some? then coverUpload.value else ""),
            Bcrypt.Hash(body.password.value, SaltRounds), None)
  }

  /** No field of the body is blank: each defined one has something besides white space. */
  lemma NotBlank(body: RegisterBody)
    requires !AnyBlank([body.fullName, body.email, body.username, body.password])
    ensures body.fullName.Some? ==> JsString.Trim(body.fullName.value) != ""
    ensures body.email.Some? ==> JsString.Trim(body.email.value) != ""
    ensures body.username.Some? ==> JsString.Trim(body.username.value) != ""
    ensures body.password.Some? ==> JsString.Trim(body.password.value) != ""
  {
    var fields := [body.fullName, body.email, body.username, body.password];
    assert fields[0] == body.fullName && fields[1] == body.email && fields[2] == body.username && fields[3] == body.password;
  }

  /** The values `registerUser` hands to `User.create` for a cover upload result. */
  function RegisterFieldsFor(body: RegisterBody, files: Option<Files>, avatarUrl: string, coverUpload: Option<string>): Fields
    requires body.username.Some?
  {
    RegisterFields(body, avatarUrl, if CoverImageLocalPath(files).Some? then coverUpload else None)
  }

  /** With every field defined and not blank and an avatar URL, the values given to `User.create` validate. */
  lemma RegisterFieldsValid(body: RegisterBody, files: Option<Files>, avatarUrl: string, coverUpload: Option<string>)
    requires body.username.Some? && body.email.Some? && body.fullName.Some? && body.password.Some?
    requires JsString.Trim(body.fullName.value) != "" && JsString.Trim(body.email.value) != ""
    requires JsString.Trim(body.username.value) != "" && body.password.value != ""
    requires avatarUrl != ""
    ensures RequiredErrors(Cast(RegisterFieldsFor(body, files, avatarUrl, coverUpload))) == []
  {
    CastIdentifierLowered(body.username.value);
    CastIdentifierLowered(body.email.value);
  }

  /** Valid values given to `User.create` make the `Registered` account once the hook has run. */
  lemma RegisterFieldsAccount(body: RegisterBody, files: Option<Files>, avatarUrl: string, coverUpload: Option<string>, newId: Id)
    requires body.username.Some? && body.email.Some? && body.fullName.Some? && body.password.Some?
    requires RequiredErrors(Cast(RegisterFieldsFor(body, files, avatarUrl, coverUpload))) == []
    ensures PreSaveHook(NewAccount(newId, Cast(RegisterFieldsFor(body, files, avatarUrl, coverUpload))), true)
         == Registered(body, files, avatarUrl, coverUpload, newId)
  {
    CastIdentifierLowered(body.username.value);
  }

  /**
   * A registration that gets as far as `User.create` in a consistent
   * collection never trips the unique index on `username` or `email`: the
   * duplicate check has already ruled out both.
   */
  lemma NoClashAfterDuplicateCheck(s: Store, body: RegisterBody, a: Account)
    requires Consistent(s)
    requires FindOne(s, OrFilter(body.username, body.email)).None?
    requires body.username.Some? && body.email.Some?
    requires a.username == CastIdentifier(body.username.value) && a.email == CastIdentifier(body.email.value)
    ensures !Clashes(s, a)
  {
    FindOneNone(s, OrFilter(body.username, body.email));
    forall k | k in s.accounts
      ensures s.accounts[k].username != a.username && s.accounts[k].email != a.email
    {
      assert !Matches(s.accounts[k], OrFilter(body.username, body.email));
    }
  }

  /** The conditions under which `registerUser` gets through every check and creates an account. */
  predicate RegisterAccepts(s: Store, body: RegisterBody, files: Option<Files>, avatarUpload: Option<string>, newId: Id) {
    RegisterReachesCreate(s, body, files, avatarUpload) && newId !in s.accounts
  }

  /** A successful registration met every condition of `RegisterAccepts`. */
  lemma RegisterSuccessMeetsConditions(s: Store, body: RegisterBody, files: Option<Files>,
                                       avatarUpload: Option<string>, coverUpload: Option<string>, newId: Id)
    requires Register(s, body, files, avatarUpload, coverUpload, newId).response.Success?
    ensures RegisterAccepts(s, body, files, avatarUpload, newId)
  {
    var coverImage := if CoverImageLocalPath(files).Some? then coverUpload else None;
    assert Insert(s, RegisterFields(body, avatarUpload.value, coverImage), newId).Ok?;
    var f := Cast(RegisterFields(body, avatarUpload.value, coverImage));
    assert Present(f.email) && Present(f.fullName) && Present(f.password);
  }

  /** A registration gets as far as `User.create` with values that validate: every field defined and not blank, no duplicate, an avatar path and URL. */
  predicate RegisterReachesCreate(s: Store, body: RegisterBody, files: Option<Files>, avatarUpload: Option<string>) {
    && !AnyBlank([body.fullName, body.email, body.username, body.password])
    && body.fullName.Some? && body.email.Some? && body.username.Some? && body.password.Some?
    && FindOne(s, OrFilter(body.username, body.email)).None?
    && AvatarLocalPath(files).Ok? && JsString.Truthy(AvatarLocalPath(files).value)
    && JsString.Truthy(avatarUpload)
  }

  /**
   * In a consistent collection, a registration that reaches `User.create`
   * with valid values fails only on an `_id` already in use; otherwise it
   * adds the `Registered` account.
   */
  lemma RegisterCreates(s: Store, body: RegisterBody, files: Option<Files>,
                        avatarUpload: Option<string>, coverUpload: Option<string>, newId: Id)
    requires Consistent(s)
    requires RegisterReachesCreate(s, body, files, avatarUpload)
    ensures var a := Registered(body, files, avatarUpload.value, coverUpload, newId);
      Register(s, body, files, avatarUpload, coverUpload, newId)
      == if newId in s.accounts then Outcome(Fail(Uncaught(DuplicateKeyError)), s)
         else Outcome(Success(201, View(a)), Store(s.accounts[newId := a], s.order + [newId]))
  {
    NotBlank(body);
    RegisterFieldsValid(body, files, avatarUpload.value, coverUpload);
    RegisterFieldsAccount(body, files, avatarUpload.value, coverUpload, newId);
    var a := Registered(body, files, avatarUpload.value, coverUpload, newId);
    NoClashAfterDuplicateCheck(s, body, a);
    var fields := RegisterFieldsFor(body, files, avatarUpload.value, coverUpload);
    assert Insert(s, fields, newId)
        == if newId in s.accounts then Err(DuplicateKeyError) else Ok(Store(s.accounts[newId := a], s.order + [newId]));
  }

  /** The duplicate key error can only come from `User.create` with valid values. */
  lemma DuplicateKeyOnlyAtCreate(s: Store, body: RegisterBody, files: Option<Files>,
                                 avatarUpload: Option<string>, coverUpload: Option<string>, newId: Id)
    requires Register(s, body, files, avatarUpload, coverUpload, newId).response == Fail(Uncaught(DuplicateKeyError))
    ensures RegisterReachesCreate(s, body, files, avatarUpload)
  {
    var coverImage := if CoverImageLocalPath(files).Some? then coverUpload else None;
    var f := Cast(RegisterFields(body, avatarUpload.value, coverImage));
    assert RequiredErrors(f) == [];
    assert Present(f.email) && Present(f.fullName) && Present(f.password) && Present(f.avatar);
  }

  /**
   * In a consistent collection a request that meets the conditions of
   * `RegisterAccepts` succeeds; and with an unused `_id` no registration
   * trips a unique index.
   */
  lemma RegisterSucceedsWhenAccepted(s: Store, body: RegisterBody, files: Option<Files>,
                                     avatarUpload: Option<string>, coverUpload: Option<string>, newId: Id)
    requires Consistent(s)
    ensures RegisterAccepts(s, body, files, avatarUpload, newId) ==>
      Register(s, body, files, avatarUpload, coverUpload, newId).response.Success?
    ensures newId !in s.accounts ==>
      Register(s, body, files, avatarUpload, coverUpload, newId).response != Fail(Uncaught(DuplicateKeyError))
  {
    if Register(s, body, files, avatarUpload, coverUpload, newId).response == Fail(Uncaught(DuplicateKeyError)) {
      DuplicateKeyOnlyAtCreate(s, body, files, avatarUpload, coverUpload, newId);
    }
    if RegisterReachesCreate(s, body, files, avatarUpload) {
      RegisterCreates(s, body, files, avatarUpload, coverUpload, newId);
    }
  }

  /**
   * In a consistent collection, registration succeeds exactly when no field
   * is blank or undefined, no account has the username or email, an avatar
   * path is given and its upload yields a URL, and the new `_id` is unused.
   */
  lemma RegisterSucceedsExactly(s: Store, body: RegisterBody, files: Option<Files>,
                                avatarUpload: Option<string>, coverUpload: Option<string>, newId: Id)
    requires Consistent(s)
    ensures Register(s, body, files, avatarUpload, coverUpload, newId).response.Success?
        <==> RegisterAccepts(s, body, files, avatarUpload, newId)
  {
    if Register(s, body, files, avatarUpload, coverUpload, newId).response.Success? {
      RegisterSuccessMeetsConditions(s, body, files, avatarUpload, coverUpload, newId);
    }
    RegisterSucceedsWhenAccepted(s, body, files, avatarUpload, coverUpload, newId);
  }

  /**
   * A successful registration responds 201 with the new account's view and
   * adds exactly that account at the end of the natural order: its username
   * and email normalised, its avatar and cover the uploaded URLs ("" for a
   * missing or failed cover), its password the cost-10 hash of the
   * submitted one, accepting exactly that password, and no refresh token.
   */
  lemma RegisterSuccess(s: Store, body: RegisterBody, files: Option<Files>,
                        avatarUpload: Option<string>, coverUpload: Option<string>, newId: Id)
    requires Register(s, body, files, avatarUpload, coverUpload, newId).response.Success?
    ensures body.username.Some? && body.email.Some? && body.fullName.Some? && body.password.Some? && avatarUpload.Some?
    ensures var o := Register(s, body, files, avatarUpload, coverUpload, newId);
      var a := Registered(body, files, avatarUpload.value, coverUpload, newId);
      && o.response == Success(201, View(a))
      && o.after == Store(s.accounts[newId := a], s.order + [newId])
      && a.password != body.password.value
      && (forall p :: IsPasswordCorrect(a, p) <==> p == body.password.value)
  {
    var coverImage := if CoverImageLocalPath(files).Some? then coverUpload else None;
    var f := Cast(RegisterFields(body, avatarUpload.value, coverImage));
    assert RequiredErrors(f) == [];
    NotBlank(body);
    RegisterFieldsValid(body, files, avatarUpload.value, coverUpload);
    RegisterFieldsAccount(body, files, avatarUpload.value, coverUpload, newId);
    var a := NewAccount(newId, f);
    PasswordCheckAfterSave(a, body.password.value, body.password.value);
    forall p ensures IsPasswordCorrect(Registered(body, files, avatarUpload.value, coverUpload, newId), p) <==> p == body.password.value {
      PasswordCheckAfterSave(a, body.password.value, p);
    }
  }

  /** A registration keeps the collection consistent. */
  lemma RegisterKeepsConsistent(s: Store, body: RegisterBody, files: Option<Files>,
                                avatarUpload: Option<string>, coverUpload: Option<string>, newId: Id)
    requires Consistent(s)
    ensures Consistent(Register(s, body, files, avatarUpload, coverUpload, newId).after)
  {
    var o := Register(s, body, files, avatarUpload, coverUpload, newId);
    RegisterAvatarChecks(s, body, files, avatarUpload, coverUpload, newId);
    if o.response.Success? {
      RegisterSucceedsExactly(s, body, files, avatarUpload, coverUpload, newId);
      RegisterSuccess(s, body, files, avatarUpload, coverUpload, newId);
      var coverImage := if CoverImageLocalPath(files).Some? then coverUpload else None;
      var fields := RegisterFields(body, avatarUpload.value, coverImage);
      NotBlank(body);
      RegisterFieldsValid(body, files, avatarUpload.value, coverUpload);
      RegisterFieldsAccount(body, files, avatarUpload.value, coverUpload, newId);
      NewAccountConforms(newId, fields);
      var a := Registered(body, files, avatarUpload.value, coverUpload, newId);
      NoClashAfterDuplicateCheck(s, body, a);
      AddKeepsConsistent(s, a);
    }
  }

  /** Adding a conforming account with a hashed password, an unused `_id` and no clash keeps the collection consistent. */
  lemma AddKeepsConsistent(s: Store, a: Account)
    requires Consistent(s)
    requires Conforms(a) && Bcrypt.IsHash(a.password) && a.id !in s.accounts && !Clashes(s, a)
    ensures Consistent(Store(s.accounts[a.id := a], s.order + [a.id]))
  {
    var t := Store(s.accounts[a.id := a], s.order + [a.id]);
    forall i, j | 0 <= i < j < |t.order| ensures t.order[i] != t.order[j] {
      if j == |s.order| {
        assert t.order[i] == s.order[i];
      }
    }
    forall id ensures id in t.accounts <==> id in t.order {
      if id in t.order && id != a.id {
        var i :| 0 <= i < |t.order| && t.order[i] == id;
        assert i < |s.order|;
        assert t.order[i] == s.order[i];
      }
    }
  }

  // ---------------------------------------------------------------------
  // generateAccessAndRefreshTokens

  datatype TokenPair = TokenPair(accessToken: string, refreshToken: string)

  /** The tokens, or the error, together with the collection afterwards. */
  datatype Issued = Issued(tokens: Result<TokenPair, ApiError>, after: Store)

  /** The one error every failure inside `generateAccessAndRefreshTokens` becomes. */
  const TokenFailure: ApiError := ApiError(500, "Something went wrong while generating refresh and access token")

  /**
   * `generateAccessAndRefreshTokens(userId)`: load the account, sign both
   * tokens, store the refresh token and save without re-hashing the
   * password.  It succeeds exactly when the account exists, both secrets
   * are set and both expiries are time spans; on success the only change is the account's refresh token,
   * overwritten with the returned one; any failure is the 500 and changes
   * nothing.
   */
  function IssueTokens(s: Store, userId: Id, env: Env): (r: Issued)
    ensures r.tokens.Ok? <==>
      && userId in s.accounts
      && env.accessTokenSecret != "" && Timespan.IsTimespan(env.accessTokenExpiry)
      && env.refreshTokenSecret != "" && Timespan.IsTimespan(env.refreshTokenExpiry)
    ensures r.tokens.Err? ==> r.tokens.error == TokenFailure && r.after == s
    ensures r.tokens.Ok? ==>
      && r.after == s.(accounts := s.accounts[userId := s.accounts[userId].(refreshToken := Some(r.tokens.value.refreshToken))])
      && GenerateAccessToken(s.accounts[userId], env) == Ok(r.tokens.value.accessToken)
      && GenerateRefreshToken(s.accounts[userId], env) == Ok(r.tokens.value.refreshToken)
  {
    if userId !in s.accounts then Issued(Err(TokenFailure), s)
    else
      var user := s.accounts[userId];
      match GenerateAccessToken(user, env)
      case Err(_) => Issued(Err(TokenFailure), s)
      case Ok(accessToken) =>
        match GenerateRefreshToken(user, env)
        case Err(_) => Issued(Err(TokenFailure), s)
        case Ok(refreshToken) =>
          var saved := PreSaveHook(user.(refreshToken := Some(refreshToken)), false);
          Issued(Ok(TokenPair(accessToken, refreshToken)), s.(accounts := s.accounts[userId := saved]))
  }

  /** `IssueTokens` step by step, for the method that performs it on documents. */
  lemma IssueTokensSteps(s: Store, userId: Id, env: Env)
    ensures userId !in s.accounts ==> IssueTokens(s, userId, env) == Issued(Err(TokenFailure), s)
    ensures userId in s.accounts ==>
      var user := s.accounts[userId];
      var at, rt := GenerateAccessToken(user, env), GenerateRefreshToken(user, env);
      && (at.Err? || rt.Err? ==> IssueTokens(s, userId, env) == Issued(Err(TokenFailure), s))
      && (at.Ok? && rt.Ok? ==>
            IssueTokens(s, userId, env)
            == Issued(Ok(TokenPair(at.value, rt.value)),
                      s.(accounts := s.accounts[userId := PreSaveHook(user.(refreshToken := Some(rt.value)), false)])))
  {
  }

  /** Issuing tokens keeps the collection consistent. */
  lemma IssueTokensKeepsConsistent(s: Store, userId: Id, env: Env)
    requires Consistent(s)
    ensures Consistent(IssueTokens(s, userId, env).after)
  {
    RefreshTokenChangeKeepsConsistent(s, IssueTokens(s, userId, env).after);
  }

  // ---------------------------------------------------------------------
  // loginUser

  datatype LoginBody = LoginBody(email: Option<string>, username: Option<string>, password: Option<string>)

  /** The body of a successful login: the account without its secrets, and both tokens. */
  datatype LoggedIn = LoggedIn(user: UserView, accessToken: string, refreshToken: string)

  /**
   * `loginUser`: 400 without a username or email, 404 when no account
   * matches, 401 on a wrong password, then the tokens; the user returned is
   * the account as re-read after the tokens were stored.
   */
  function Login(s: Store, body: LoginBody, env: Env): (o: Outcome<LoggedIn>)
    ensures o.response.Fail? ==> o.after == s
    ensures o.response.Success? ==>
      && o.response.status == 200
      && o.after.order == s.order && o.after.accounts.Keys == s.accounts.Keys
  {
    if !JsString.Truthy(body.username) && !JsString.Truthy(body.email) then
      Outcome(Error(400, "username or email is required"), s)
    else match FindOne(s, OrFilter(body.username, body.email))
      case None => Outcome(Error(404, "User does not exist"), s)
      case Some(k) =>
        var user := s.accounts[s.order[k]];
        if body.password.None? then Outcome(Fail(Uncaught("data and hash arguments required")), s)
        else if !IsPasswordCorrect(user, body.password.value) then Outcome(Error(401, "Invalid user credentials"), s)
        else
          var issued := IssueTokens(s, user.id, env);
          match issued.tokens
          case Err(e) => Outcome(Fail(Thrown(e)), issued.after)
          case Ok(pair) =>
            Outcome(Success(200, LoggedIn(View(issued.after.accounts[user.id]), pair.accessToken, pair.refreshToken)),
                    issued.after)
  }

  /**
   * The checks of `loginUser` come in order, 400 then 404 then 401, and a
   * login that fails in any way, the token step's 500 included, leaves
   * every account as it was.
   */
  lemma LoginChecksInOrder(s: Store, body: LoginBody, env: Env)
    ensures var found := FindOne(s, OrFilter(body.username, body.email));
      && (!JsString.Truthy(body.username) && !JsString.Truthy(body.email) ==>
            Login(s, body, env).response == Error(400, "username or email is required"))
      && ((JsString.Truthy(body.username) || JsString.Truthy(body.email)) && found.None? ==>
            Login(s, body, env).response == Error(404, "User does not exist"))
      && ((JsString.Truthy(body.username) || JsString.Truthy(body.email)) && found.Some? && body.password.Some?
          && !IsPasswordCorrect(s.accounts[s.order[found.value]], body.password.value) ==>
            Login(s, body, env).response == Error(401, "Invalid user credentials"))
    ensures Login(s, body, env).response.Fail? ==> Login(s, body, env).after == s
  {
  }

  /**
   * A login that passes the 400, 404 and 401 checks in a consistent
   * collection succeeds exactly when both tokens can be issued; otherwise it
   * fails with the token step's 500.
   */
  lemma LoginAfterChecks(s: Store, body: LoginBody, env: Env)
    requires Consistent(s)
    requires JsString.Truthy(body.username) || JsString.Truthy(body.email)
    requires FindOne(s, OrFilter(body.username, body.email)).Some?
    requires body.password.Some?
    requires IsPasswordCorrect(s.accounts[s.order[FindOne(s, OrFilter(body.username, body.email)).value]], body.password.value)
    ensures Login(s, body, env).response.Success? <==>
      && env.accessTokenSecret != "" && Timespan.IsTimespan(env.accessTokenExpiry)
      && env.refreshTokenSecret != "" && Timespan.IsTimespan(env.refreshTokenExpiry)
    ensures !Login(s, body, env).response.Success? ==> Login(s, body, env).response == Fail(Thrown(TokenFailure))
  {
  }

  /**
   * A successful login responds 200 for the matching account whose password
   * was given; it stores exactly the returned refresh token in that account,
   * overwriting what was there, and changes nothing else; the returned user
   * is that account without its secrets, and the returned tokens are the
   * ones signed for it.
   */
  lemma LoginSuccess(s: Store, body: LoginBody, env: Env)
    requires Consistent(s)
    requires Login(s, body, env).response.Success?
    ensures var o := Login(s, body, env);
      var k := FindOne(s, OrFilter(body.username, body.email));
      && k.Some?
      && var a := s.accounts[s.order[k.value]];
      && Matches(a, OrFilter(body.username, body.email))
      && body.password.Some? && IsPasswordCorrect(a, body.password.value)
      && o.response.status == 200
      && o.after == s.(accounts := s.accounts[a.id := a.(refreshToken := Some(o.response.value.refreshToken))])
      && o.response.value.user == View(a)
      && GenerateAccessToken(a, env) == Ok(o.response.value.accessToken)
      && GenerateRefreshToken(a, env) == Ok(o.response.value.refreshToken)
  {
    var k := FindOne(s, OrFilter(body.username, body.email)).value;
    FindOneNone(s, OrFilter(body.username, body.email));
    assert s.order[k] in s.accounts;
  }

  /**
   * After a successful login, the access token it returned opens the
   * authentication gate, from the cookie or a "Bearer" header, and the gate
   * yields the same user the login returned.
   */
  lemma LoginTokenOpensGate(s: Store, body: LoginBody, env: Env)
    requires Consistent(s)
    requires Login(s, body, env).response.Success?
    ensures var o := Login(s, body, env);
      && AuthMiddleware.VerifyJwt(o.after.accounts, AuthMiddleware.Request(Some(o.response.value.accessToken), None), env, false)
         == AuthMiddleware.Next(o.response.value.user)
      && AuthMiddleware.VerifyJwt(o.after.accounts,
           AuthMiddleware.Request(None, Some(AuthMiddleware.BearerPrefix + o.response.value.accessToken)), env, false)
         == AuthMiddleware.Next(o.response.value.user)
  {
    LoginSuccess(s, body, env);
    var o := Login(s, body, env);
    var k := FindOne(s, OrFilter(body.username, body.email)).value;
    var a := s.accounts[s.order[k]];
    var stored := o.after.accounts[a.id];
    assert stored == a.(refreshToken := Some(o.response.value.refreshToken));
    assert AccessClaims(stored) == AccessClaims(a);
    assert GenerateAccessToken(stored, env) == GenerateAccessToken(a, env);
    AuthMiddleware.GateAcceptsIssuedAccessToken(o.after.accounts, stored, env);
  }

  /** A login keeps the collection consistent. */
  lemma LoginKeepsConsistent(s: Store, body: LoginBody, env: Env)
    requires Consistent(s)
    ensures Consistent(Login(s, body, env).after)
  {
    LoginChecksInOrder(s, body, env);
    if Login(s, body, env).response.Success? {
      var a := s.accounts[s.order[FindOne(s, OrFilter(body.username, body.email)).value]];
      assert Login(s, body, env).after == IssueTokens(s, a.id, env).after;
      IssueTokensKeepsConsistent(s, a.id, env);
    }
  }

  // ---------------------------------------------------------------------
  // logoutUser

  /** `findByIdAndUpdate(id, { $unset: { refreshToken: 1 } })`: no error when the account is gone. */
  function UnsetRefreshToken(accounts: map<Id, Account>, id: Id): (r: map<Id, Account>)
    ensures r.Keys == accounts.Keys
    ensures forall k :: k in r ==> r[k].(refreshToken := None) == accounts[k].(refreshToken := None)
    ensures forall k :: k in r ==> r[k].refreshToken == if k == id then None else accounts[k].refreshToken
  {
    if id in accounts then accounts[id := accounts[id].(refreshToken := None)] else accounts
  }

  /** `logoutUser` for the account the gate attached; always 200. */
  function Logout(s: Store, user: UserView): (o: Outcome<()>)
    ensures o.response == Success(200, ())
    ensures o.after.order == s.order && o.after.accounts.Keys == s.accounts.Keys
  {
    Outcome(Success(200, ()), s.(accounts := UnsetRefreshToken(s.accounts, user.id)))
  }

  /**
   * Logout responds 200, clears the refresh token of the authenticated
   * account and nothing else: other paths of that account and every other
   * account are unchanged, and logging out twice is the same as once.
   */
  lemma LogoutClearsOnlyRefreshToken(s: Store, user: UserView)
    ensures var o := Logout(s, user);
      && o.response == Success(200, ())
      && o.after.order == s.order
      && o.after.accounts.Keys == s.accounts.Keys
      && (user.id in s.accounts ==> o.after.accounts[user.id] == s.accounts[user.id].(refreshToken := None))
      && (forall id :: id in s.accounts && id != user.id ==> o.after.accounts[id] == s.accounts[id])
    ensures Logout(Logout(s, user).after, user) == Logout(s, user)
  {
  }

  /** Logout keeps the collection consistent. */
  lemma LogoutKeepsConsistent(s: Store, user: UserView)
    requires Consistent(s)
    ensures Consistent(Logout(s, user).after)
  {
    RefreshTokenChangeKeepsConsistent(s, Logout(s, user).after);
  }

  /** Changing nothing but refresh tokens keeps the collection consistent. */
  lemma RefreshTokenChangeKeepsConsistent(s: Store, t: Store)
    requires Consistent(s)
    requires t.order == s.order && t.accounts.Keys == s.accounts.Keys
    requires forall id :: id in s.accounts ==> t.accounts[id] == s.accounts[id].(refreshToken := t.accounts[id].refreshToken)
    ensures Consistent(t)
  {
    forall id | id in t.accounts
      ensures t.accounts[id].id == id && Conforms(t.accounts[id]) && Bcrypt.IsHash(t.accounts[id].password)
    {
      ConformsIgnoresRefreshToken(s.accounts[id], t.accounts[id].refreshToken);
    }
  }

  lemma ConformsIgnoresRefreshToken(a: Account, token: Option<string>)
    requires Conforms(a)
    ensures Conforms(a.(refreshToken := token))
  {
  }

  // ---------------------------------------------------------------------
  // The collection as the controller changes it

  /** The `users` collection the controller reads and writes. */
  class UserCollection {
    var accounts: map<Id, Account>
    var order: seq<Id>

    function State(): Store
      reads this
    {
      Store(accounts, order)
    }

    ghost predicate Valid()
      reads this
    {
      Consistent(State())
    }

    /** An empty collection. */
    constructor ()
      ensures Valid() && State() == Store(map[], [])
    {
      accounts := map[];
      order := [];
    }

    /** `User.findById(id)`: a freshly loaded document, or null. */
    method FindById(id: Id) returns (doc: UserDocument?)
      ensures doc == null <==> id !in accounts
      ensures doc != null ==> fresh(doc) && doc.value == accounts[id] && !doc.passwordModified
    {
      if id in accounts {
        doc := new UserDocument.Hydrate(accounts[id]);
      } else {
        doc := null;
      }
    }

    /** `generateAccessAndRefreshTokens(userId)`, on a loaded document saved back in place. */
    method GenerateAccessAndRefreshTokens(userId: Id, env: Env) returns (r: Result<TokenPair, ApiError>)
      requires Valid()
      modifies this
      ensures Valid()
      ensures Issued(r, State()) == IssueTokens(old(State()), userId, env)
    {
      ghost var s0 := State();
      IssueTokensSteps(s0, userId, env);
      var user := FindById(userId);
      if user == null {
        return Err(TokenFailure);
      }
      var accessToken := GenerateAccessToken(user.value, env);
      if accessToken.Err? {
        return Err(TokenFailure);
      }
      var refreshToken := GenerateRefreshToken(user.value, env);
      if refreshToken.Err? {
        return Err(TokenFailure);
      }
      user.SetRefreshToken(refreshToken.value);
      user.PreSave();
      accounts := accounts[userId := user.value];
      r := Ok(TokenPair(accessToken.value, refreshToken.value));
      assert Issued(r, State()) == IssueTokens(s0, userId, env);
      IssueTokensKeepsConsistent(s0, userId, env);
    }

    /** `User.create(fields)` under `_id` `id`, on a new document. */
    method Create(fields: Fields, id: Id) returns (r: Result<Account, string>)
      modifies this
      ensures var c := Insert(old(State()), fields, id);
        && (c.Err? ==> r == Err(c.error) && State() == old(State()))
        && (c.Ok? ==> r.Ok? && State() == c.value && id in accounts && r.value == accounts[id])
    {
      var f := Cast(fields);
      if RequiredErrors(f) != [] {
        return Err(UserValidationFailed);
      }
      var doc := new UserDocument.Create(NewAccount(id, f));
      doc.PreSave();
      var a := doc.value;
      if id in accounts {
        return Err(DuplicateKeyError);
      }
      if Clashes(State(), a) {
        return Err(DuplicateKeyError);
      }
      accounts := accounts[id := a];
      order := order + [id];
      r := Ok(a);
    }

    /** `registerUser`. */
    method RegisterUser(body: RegisterBody, files: Option<Files>,
                        avatarUpload: Option<string>, coverUpload: Option<string>, newId: Id)
      returns (r: Response<UserView>)
      requires Valid()
      modifies this
      ensures Valid()
      ensures Outcome(r, State()) == Register(old(State()), body, files, avatarUpload, coverUpload, newId)
    {
      RegisterKeepsConsistent(State(), body, files, avatarUpload, coverUpload, newId);
      if AnyBlank([body.fullName, body.email, body.username, body.password]) {
        return Error(400, "All fields are required");
      }
      var existedUser := FindOne(State(), OrFilter(body.username, body.email));
      if existedUser.Some? {
        return Error(409, "User already exists");
      }
      var avatarLocalPath := AvatarLocalPath(files);
      if avatarLocalPath.Err? {
        return Fail(Uncaught(avatarLocalPath.error));
      }
      var coverImageLocalPath := CoverImageLocalPath(files);
      if !JsString.Truthy(avatarLocalPath.value) {
        return Error(400, "Avatar is required");
      }
      var avatar := avatarUpload;
      var coverImage := if coverImageLocalPath.Some? then coverUpload else None;
      if avatar.None? {
        return Error(500, "Failed to upload avatar");
      }
      if body.username.None? {
        return Fail(Uncaught("Cannot read properties of undefined (reading 'toLowerCase')"));
      }
      var user := Create(RegisterFields(body, avatar.value, coverImage), newId);
      if user.Err? {
        return Fail(Uncaught(user.error));
      }
      r := Success(201, View(accounts[newId]));
    }

    /** `loginUser`. */
    method LoginUser(body: LoginBody, env: Env) returns (r: Response<LoggedIn>)
      requires Valid()
      modifies this
      ensures Valid()
      ensures Outcome(r, State()) == Login(old(State()), body, env)
    {
      LoginKeepsConsistent(State(), body, env);
      if !JsString.Truthy(body.username) && !JsString.Truthy(body.email) {
        return Error(400, "username or email is required");
      }
      var found := FindOne(State(), OrFilter(body.username, body.email));
      if found.None? {
        return Error(404, "User does not exist");
      }
      var user := accounts[order[found.value]];
      if body.password.None? {
        return Fail(Uncaught("data and hash arguments required"));
      }
      var isPasswordValid := IsPasswordCorrect(user, body.password.value);
      if !isPasswordValid {
        return Error(401, "Invalid user credentials");
      }
      var tokens := GenerateAccessAndRefreshTokens(user.id, env);
      if tokens.Err? {
        return Fail(Thrown(tokens.error));
      }
      var loggedInUser := View(accounts[user.id]);
      r := Success(200, LoggedIn(loggedInUser, tokens.value.accessToken, tokens.value.refreshToken));
    }

    /** `logoutUser` for the user the gate attached. */
    method LogoutUser(user: UserView) returns (r: Response<()>)
      requires Valid()
      modifies this
      ensures Valid()
      ensures Outcome(r, State()) == Logout(old(State()), user)
    {
      LogoutKeepsConsistent(State(), user);
      if user.id in accounts {
        accounts := accounts[user.id := accounts[user.id].(refreshToken := None)];
      }
      r := Success(200, ());
    }
  }
}

=== FILE: user_model.dfy ===
/**
 * The `User` model of src/models/user.model.js: the account record, the
 * schema's setters and `required` rules, the pre-save hook that hashes the
 * password, `isPasswordCorrect`, and the two signed tokens.
 */
module UserModel {
  import opened Wrappers
  import JsString
  import Bcrypt
  import Jwt
  import Timespan

  /** A document `_id`, as its hexadecimal string. */
  type Id = string

  /** The bcrypt cost the pre-save hook uses. */
  const SaltRounds: nat := 10

  /** A stored account.  `coverImage` and `refreshToken` are optional paths; `None` is an unset path. */
  datatype Account = Account(
    id: Id,
    username: string,
    email: string,
    fullName: string,
    avatar: string,
    coverImage: Option<string>,
    password: string,
    refreshToken: Option<string>)

  /** An account as `.select("-password -refreshToken")` returns it: the two secrets are not there. */
  datatype UserView = UserView(
    id: Id,
    username: string,
    email: string,
    fullName: string,
    avatar: string,
    coverImage: Option<string>)

  function View(a: Account): UserView {
    UserView(a.id, a.username, a.email, a.fullName, a.avatar, a.coverImage)
  }

  /** Two accounts look the same to a client exactly when they differ at most in `password` and `refreshToken`. */
  lemma ViewHidesOnlySecrets(a: Account, b: Account)
    ensures View(a) == View(b) <==> a.(password := b.password, refreshToken := b.refreshToken) == b
  {
  }

  /** The process environment the token code reads; an undefined variable reads as "". */
  datatype Env = Env(
    accessTokenSecret: string,
    accessTokenExpiry: string,
    refreshTokenSecret: string,
    refreshTokenExpiry: string)

  // ---------------------------------------------------------------------
  // Schema: setters and required paths

  /** The setters of `username` and `email`: `lowercase: true`, then `trim: true`. */
  function CastIdentifier(s: string): (r: string)
    ensures IsCastIdentifier(r) && |r| <= |s|
  {
    JsString.ToLowerProperties(s);
    JsString.TrimKeepsLower(JsString.ToLower(s));
    JsString.Trim(JsString.ToLower(s))
  }

  /** The setter of `fullName`: `trim: true`. */
  function CastName(s: string): (r: string)
    ensures IsCastName(r) && |r| <= |s|
  {
    JsString.Trim(s)
  }

  /** Casting an identifier is idempotent. */
  lemma CastIdentifierIdempotent(s: string)
    ensures CastIdentifier(CastIdentifier(s)) == CastIdentifier(s)
  {
    SettersNormalise(s);
    SettersNormalise(CastIdentifier(s));
  }

  /** Lowering an identifier before casting it changes nothing, and the cast is empty exactly when the input is blank. */
  lemma CastIdentifierLowered(s: string)
    ensures CastIdentifier(JsString.ToLower(s)) == CastIdentifier(s)
    ensures CastIdentifier(s) == "" <==> JsString.Trim(s) == ""
  {
    JsString.ToLowerProperties(s);
    JsString.BlankToLower(s);
  }

  /** The values given to `User.create`; an undefined value is `None`. */
  datatype Fields = Fields(
    username: Option<string>,
    email: Option<string>,
    fullName: Option<string>,
    avatar: Option<string>,
    coverImage: Option<string>,
    password: Option<string>)

  function CastOption(o: Option<string>, identifier: bool): Option<string> {
    match o
    case None => None
    case Some(s) => Some(if identifier then CastIdentifier(s) else CastName(s))
  }

  /** `new User(fields)`: each defined value goes through its path's setters. */
  function Cast(f: Fields): (r: Fields)
    ensures r.avatar == f.avatar && r.coverImage == f.coverImage && r.password == f.password
    ensures r.username.Some? <==> f.username.Some?
    ensures r.email.Some? <==> f.email.Some?
    ensures r.fullName.Some? <==> f.fullName.Some?
    ensures r.username.Some? ==> IsCastIdentifier(r.username.value)
    ensures r.email.Some? ==> IsCastIdentifier(r.email.value)
    ensures r.fullName.Some? ==> IsCastName(r.fullName.value)
  {
    f.(username := CastOption(f.username, true),
       email := CastOption(f.email, true),
       fullName := CastOption(f.fullName, false))
  }

  /** A `required` String path is satisfied by a defined, non-empty value. */
  predicate Present(o: Option<string>) {
    o.Some? && o.value != ""
  }

  /** The `required` validators in schema path order; the messages of those that fail. */
  function RequiredErrors(f: Fields): (errs: seq<string>)
    ensures errs == [] <==>
      Present(f.username) && Present(f.email) && Present(f.fullName) && Present(f.avatar) && Present(f.password)
    ensures |errs| <= 5
  {
    (if Present(f.username) then [] else ["Username is required"])
    + (if Present(f.email) then [] else ["Email is required"])
    + (if Present(f.fullName) then [] else ["Full name is required"])
    + (if Present(f.avatar) then [] else ["Avatar is required"])
    + (if Present(f.password) then [] else ["Password is required"])
  }

  /** The account a valid set of values makes, under a new `_id`; `refreshToken` is unset. */
  function NewAccount(id: Id, f: Fields): Account
    requires RequiredErrors(f) == []
  {
    Account(id, f.username.value, f.email.value, f.fullName.value, f.avatar.value,
            f.coverImage, f.password.value, None)
  }

  /** What the `username`/`email` setters produce: lower case, with no white space at either end. */
  ghost predicate IsCastIdentifier(s: string) {
    JsString.IsLower(s) && JsString.IsTrimmed(s)
  }

  /** What the `fullName` setter produces: no white space at either end. */
  ghost predicate IsCastName(s: string) {
    JsString.IsTrimmed(s)
  }

  /** The setters produce such values, and leave such values as they are. */
  lemma SettersNormalise(s: string)
    ensures IsCastIdentifier(CastIdentifier(s)) && IsCastName(CastName(s))
    ensures IsCastIdentifier(s) ==> CastIdentifier(s) == s
    ensures IsCastName(s) ==> CastName(s) == s
  {
    JsString.ToLowerProperties(s);
    JsString.TrimKeepsLower(JsString.ToLower(s));
    if IsCastIdentifier(s) {
      JsString.ToLowerOfLower(s);
      JsString.TrimOfTrimmed(s);
    }
    if IsCastName(s) {
      JsString.TrimOfTrimmed(s);
    }
  }

  /** What the schema guarantees of every stored account: identifiers and name are as their setters leave them, required paths are non-empty. */
  ghost predicate Conforms(a: Account) {
    && IsCastIdentifier(a.username)
    && IsCastIdentifier(a.email)
    && IsCastName(a.fullName)
    && a.username != "" && a.email != "" && a.fullName != "" && a.avatar != "" && a.password != ""
  }

  /** Values that pass validation after casting make an account that conforms to the schema. */
  lemma NewAccountConforms(id: Id, f: Fields)
    requires RequiredErrors(Cast(f)) == []
    ensures Conforms(NewAccount(id, Cast(f)))
  {
    SettersNormalise(f.username.value);
    SettersNormalise(f.email.value);
    SettersNormalise(f.fullName.value);
  }

  // ---------------------------------------------------------------------
  // Password

  /** The pre-save hook: hash `password` with cost 10 only when the path was modified. */
  function PreSaveHook(a: Account, passwordModified: bool): (r: Account)
    ensures r.(password := a.password) == a
    ensures passwordModified ==> Bcrypt.Compare(a.password, r.password)
    ensures !passwordModified ==> r == a
  {
    if passwordModified then
      Bcrypt.CompareHash(a.password, a.password, SaltRounds);
      a.(password := Bcrypt.Hash(a.password, SaltRounds))
    else a
  }

  /**
   * The hook changes the stored password exactly when the password was
   * modified, then stores a cost-10 hashed form; it changes no other path.
   */
  lemma PreSaveHashesOnlyModified(a: Account, passwordModified: bool)
    ensures PreSaveHook(a, passwordModified).password == a.password <==> !passwordModified
    ensures passwordModified ==>
      Bcrypt.IsHash(PreSaveHook(a, passwordModified).password)
      && Bcrypt.Rounds(PreSaveHook(a, passwordModified).password) == SaltRounds
    ensures PreSaveHook(a, passwordModified).(password := a.password) == a
  {
  }

  /** `isPasswordCorrect(password)`: `bcrypt.compare` against the stored hashed form. */
  function IsPasswordCorrect(a: Account, password: string): (r: bool)
    ensures r ==> Bcrypt.IsHash(a.password) && a.password != password
  {
    Bcrypt.Compare(password, a.password)
  }

  /** Once the hook has hashed `plain`, the account accepts exactly `plain`, and the stored value is not `plain`. */
  lemma PasswordCheckAfterSave(a: Account, plain: string, attempt: string)
    ensures PreSaveHook(a.(password := plain), true).password != plain
    ensures IsPasswordCorrect(PreSaveHook(a.(password := plain), true), attempt) <==> attempt == plain
  {
    Bcrypt.CompareHash(attempt, plain, SaltRounds);
  }

  // ---------------------------------------------------------------------
  // Tokens

  /** The access token's payload: `_id`, `email`, `username`, `fullName`, in that order. */
  function AccessClaims(a: Account): seq<Jwt.Claim> {
    [Jwt.Claim("_id", a.id), Jwt.Claim("email", a.email),
     Jwt.Claim("username", a.username), Jwt.Claim("fullName", a.fullName)]
  }

  /** The refresh token's payload: `_id` only. */
  function RefreshClaims(a: Account): seq<Jwt.Claim> {
    [Jwt.Claim("_id", a.id)]
  }

  /** `generateAccessToken()`: signed with the access secret and access expiry. */
  function GenerateAccessToken(a: Account, env: Env): (r: Result<string, string>)
    ensures r.Ok? <==> env.accessTokenSecret != "" && Timespan.IsTimespan(env.accessTokenExpiry)
  {
    Jwt.Sign(AccessClaims(a), env.accessTokenSecret, env.accessTokenExpiry)
  }

  /** `generateRefreshToken()`: signed with the refresh secret and refresh expiry. */
  function GenerateRefreshToken(a: Account, env: Env): (r: Result<string, string>)
    ensures r.Ok? <==> env.refreshTokenSecret != "" && Timespan.IsTimespan(env.refreshTokenExpiry)
  {
    Jwt.Sign(RefreshClaims(a), env.refreshTokenSecret, env.refreshTokenExpiry)
  }

  /**
   * An access token is issued exactly when the access secret is set and
   * the access expiry is a time span; it verifies under the access secret
   * to exactly the four identity claims and the access expiry.
   */
  lemma AccessTokenContents(a: Account, env: Env)
    ensures GenerateAccessToken(a, env).Ok? <==>
      env.accessTokenSecret != "" && Timespan.IsTimespan(env.accessTokenExpiry)
    ensures GenerateAccessToken(a, env).Ok? ==>
      Jwt.Verify(GenerateAccessToken(a, env).value, env.accessTokenSecret, false)
      == Ok(Jwt.Decoded([Jwt.Claim("_id", a.id), Jwt.Claim("email", a.email),
                         Jwt.Claim("username", a.username), Jwt.Claim("fullName", a.fullName)],
                        env.accessTokenExpiry))
  {
    if GenerateAccessToken(a, env).Ok? {
      Jwt.VerifySigned(AccessClaims(a), env.accessTokenSecret, env.accessTokenExpiry, false);
    }
  }

  /**
   * A refresh token is issued exactly when the refresh secret is set and
   * the refresh expiry is a time span; it verifies under the refresh
   * secret to the `_id` claim alone and the refresh expiry.
   */
  lemma RefreshTokenContents(a: Account, env: Env)
    ensures GenerateRefreshToken(a, env).Ok? <==>
      env.refreshTokenSecret != "" && Timespan.IsTimespan(env.refreshTokenExpiry)
    ensures GenerateRefreshToken(a, env).Ok? ==>
      Jwt.Verify(GenerateRefreshToken(a, env).value, env.refreshTokenSecret, false)
      == Ok(Jwt.Decoded([Jwt.Claim("_id", a.id)], env.refreshTokenExpiry))
  {
    if GenerateRefreshToken(a, env).Ok? {
      Jwt.VerifySigned(RefreshClaims(a), env.refreshTokenSecret, env.refreshTokenExpiry, false);
    }
  }

  /** With two different secrets, a refresh token never verifies as an access token. */
  lemma RefreshTokenIsNotAnAccessToken(a: Account, env: Env, expired: bool)
    requires env.accessTokenSecret != env.refreshTokenSecret
    requires GenerateRefreshToken(a, env).Ok?
    ensures Jwt.Verify(GenerateRefreshToken(a, env).value, env.accessTokenSecret, expired).Err?
  {
    Jwt.OtherSecretRejected(RefreshClaims(a), env.refreshTokenSecret, env.accessTokenSecret,
                            env.refreshTokenExpiry, expired);
  }

  // ---------------------------------------------------------------------
  // A Mongoose document

  /** A `User` document in memory: its values and whether `password` was modified since it was loaded. */
  class UserDocument {
    var value: Account
    var passwordModified: bool

    /** `new User(values)`: every path set on a new document counts as modified. */
    constructor Create(a: Account)
      ensures value == a && passwordModified
    {
      value := a;
      passwordModified := true;
    }

    /** A document returned by `findById`: nothing modified yet. */
    constructor Hydrate(a: Account)
      ensures value == a && !passwordModified
    {
      value := a;
      passwordModified := false;
    }

    /** `user.refreshToken = token`: leaves the password's modified flag alone. */
    method SetRefreshToken(token: string)
      modifies this
      ensures value == old(value).(refreshToken := Some(token))
      ensures passwordModified == old(passwordModified)
    {
      value := value.(refreshToken := Some(token));
    }

    /** The pre-save hook, run in place on the document. */
    method PreSave()
      modifies this
      ensures value == PreSaveHook(old(value), old(passwordModified))
      ensures passwordModified == old(passwordModified)
    {
      if passwordModified {
        value := value.(password := Bcrypt.Hash(value.password, SaltRounds));
      }
    }
  }
}

=== FILE: wrappers.dfy ===
/** Optional values and results shared by every module of the model. */
module Wrappers {

  /** A value that may be absent: JavaScript's `undefined` / `null`. */
  datatype Option<+T> = None | Some(value: T)

  /** The outcome of a library call that either returns or throws. */
  datatype Result<+T, +E> = Ok(value: T) | Err(error: E)
}
